=== FILE: README.md ===
# Costumbres Tintay client — a Dafny model

This is a model of the core of the Costumbres Tintay web client. The client is a tourism
assistant for the district of Tintay (Aymaraes, Apurímac). It talks to a generative-AI service
through four screens:

- a turn-based chat with spoken replies;
- a live voice/video session that streams audio back and schedules it for playback;
- a historical-research screen grounded in web search;
- a place-search screen grounded in maps.

The model and its proofs cover:

- **The assistant client** (`GeminiService`, in `services/geminiService.ts`). It shapes a
  service answer into `{text, audioData, sources}`, a base64 audio payload or a PNG data URL.
  The service is an opaque parameter `Remote = string -> Result<Response, RemoteError>`. The
  prompt the client sends is therefore part of the model, while the answer (or the error thrown)
  is arbitrary. `SdkResponse` gives the shape of an answer that the client reads through
  optional chaining. `JsText` gives JavaScript's `trim` (the ECMAScript white space and line
  terminators of ECMA-262, sections 12.2 and 12.3) and string truthiness.
- **The chat screen** (`ChatStudio.ChatScreen`). It holds the message log, the input, the three
  UI flags and a lazily created 24 kHz playback context. `handleSend` awaits the client, so it is
  split at the `await`:
  - `BeginSend` does the guard, logs the user message, clears the input and raises `isProcessing`;
  - `FinishSend` appends exactly one assistant message, plays the audio and lowers the flag;
  - `HandleSend` runs both back to back.
- **The live session** (`LiveStudio.LiveSession`). Its refs are fields: frame timer, session,
  playback context, camera stream, playback clock and the set of scheduled sources. The browser
  and the SDK appear only as the handles they hand out and as `effects`, a log of the calls the
  screen makes (`start`, `stop`, releases). The `onmessage` scheduler is specified by the pure
  step `Deliver` on a `Playback` value. The following are proved about it:
  - barge-in stops every source and resets the clock to 0;
  - chunks start at `max(clock, now)`;
  - a chunk that fails to decode starts nothing, but the clock has still been raised;
  - between interruptions, a run of chunks never overlaps and the clock never goes back.

  Teardown (`StopSession`) is proved to release exactly the handles held, in order, once each.
  Called again, it releases nothing.
- **The research and place-search screens** (`MuseumStudio.ResearchScreen`,
  `MapsStudio.PlacesScreen`). Each screen is split at its `await` in the same way. A blank query
  does nothing. Sources are exactly the web chunks (or map chunks) of the answer, in order. A
  failure shows the apology text or, in the place search, nothing.
- **The records** of `services/types.ts` (`Types`). `Message` drops `id` and `timestamp`.

Three behaviours are modelled as written and exhibited by scenario methods:

- With the camera off, the granted microphone stream is never stored in a ref. Teardown
  therefore never stops its tracks (`LiveStudio.AudioOnlySessionScenario`).
- Teardown does not reset the playback clock. The first chunk of a later session is scheduled at
  the old clock value (`LiveStudio.RestartKeepsClockScenario`).
- The unmount cleanup runs after React has detached the video element's ref. Leaving the live
  screen during a camera session therefore never stops the camera and microphone tracks
  (`LiveStudio.UnmountCameraSessionScenario`).

## Model

| member | source | states |
|---|---|---|
| JsText.Trim | components/ChatStudio.tsx:76 | `s.trim()` is no longer than `s`; a non-empty result neither starts nor ends with white space |
| JsText.TrimStart | components/ChatStudio.tsx:76 | the result is a suffix of the input, what it drops is all white space, and it does not start with white space |
| JsText.TrimEnd | components/ChatStudio.tsx:76 | the result is a prefix of the input, what it drops is all white space, and it does not end with white space |
| JsText.TrimEmptyIffBlank | components/ChatStudio.tsx:76 | `!s.trim()` holds exactly when `s` is empty or all white space, in both directions |
| JsText.TrimsToEmpty | components/ChatStudio.tsx:76 | the guard `!s.trim()` shared by the chat, research and place-search handlers is true exactly for a blank string |
| JsText.OrElse | services/geminiService.ts:64 | JavaScript `or` of a string with a fallback: the value when it is present and non-empty, otherwise the fallback; never empty when the fallback is not |
| SdkResponse.MissingMetadataMeansNoChunks | services/geminiService.ts:66 | a missing first candidate, grounding metadata or chunk list falls back to the empty list |
| SdkResponse.FirstCandidate | services/geminiService.ts:66 | `candidates?.[0]` is present exactly when the candidate list is present and non-empty, and is then its first element |
| SdkResponse.GroundingChunks | services/geminiService.ts:66 | a chunk list present on the first candidate's grounding metadata is returned as it is, and a non-empty result is always that list |
| SdkResponse.Filter | services/geminiService.ts:67-68 | every element `filter` keeps passes the test, and the result is no longer than the input |
| SdkResponse.FilterMembers | services/geminiService.ts:67-68 | an element is in the filtered list exactly when it is in the input and passes the test, in both directions |
| SdkResponse.FilterAppend | services/geminiService.ts:67-68 | filtering distributes over concatenation, so kept elements keep their order |
| SdkResponse.FilterExtremes | services/geminiService.ts:67-68 | a filter passing every element is the identity; one passing none yields the empty list |
| SdkResponse.FirstInlineIndex | services/geminiService.ts:96-100 | the index of the first part with inline data (every earlier part has none); absent exactly when no part has any |
| GeminiService.ChatText | services/geminiService.ts:64 | the reply text is the answer's text when truthy, else the fixed fallback; never empty |
| GeminiService.WebChunks | services/geminiService.ts:66-68 | every chunk kept cites a web page |
| GeminiService.SourceOf | services/geminiService.ts:69-72 | a source's title and uri are the chunk's when truthy, else "Fuente de información" and "#"; neither is ever empty |
| GeminiService.WebSources | services/geminiService.ts:67-72 | one source per web chunk, in order: the i-th source is built from the i-th web chunk |
| GeminiService.WebSourcesAppend | services/geminiService.ts:67-72 | the sources of concatenated chunk lists are the concatenated sources |
| GeminiService.WebSourcesOfOne | services/geminiService.ts:67-72 | a chunk without a web page contributes no source; one with a web page contributes exactly one |
| GeminiService.FirstPartData | services/geminiService.ts:44 | present exactly when every link of `candidates?.[0]?.content?.parts?.[0]?.inlineData?.data` is present, and then equal to that data |
| GeminiService.SynthesisPromptQuotesText | services/geminiService.ts:33 | the speech prompt is the fixed voice instruction followed by the text verbatim, so the text can be read back from it |
| GeminiService.SynthesizeText | services/geminiService.ts:28-49 | a failed speech call yields undefined; a successful one yields the first part's inline data of the answer to the voice prompt |
| GeminiService.OnlyFirstPartIsSpoken | services/geminiService.ts:44 | when the first part has no inline data, no audio is returned, whatever later parts hold |
| GeminiService.GetChatResponse | services/geminiService.ts:51-86 | fails exactly when the chat call fails, re-throwing its error; otherwise the text is the answer's or the fallback, the sources are the web sources of the grounding chunks, and the audio is the synthesis of that text |
| GeminiService.SpeechFailureKeepsReply | services/geminiService.ts:74-81 | a failing speech call never fails the reply; the reply then has no audio |
| GeminiService.NoWebChunksNoSources | services/geminiService.ts:66-72 | an answer with no web chunk yields a reply without sources |
| GeminiService.GenerateTintayImage | services/geminiService.ts:88-106 | an image is produced only when the call succeeded, and it always starts with `data:image/png;base64,` |
| GeminiService.ImagePromptQuotesPrompt | services/geminiService.ts:93 | the image prompt holds the user's prompt verbatim between the fixed lead and style, so it can be read back |
| GeminiService.ImageFromFirstInlinePart | services/geminiService.ts:96-100 | when part k is the first with inline data, the image is exactly the PNG prefix followed by that part's data |
| GeminiService.Interpolate | services/geminiService.ts:98 | a template literal shows a present string as itself and an absent one as `undefined` |
| GeminiService.NoImageCases | services/geminiService.ts:96-105 | a failed call, a missing candidate, a candidate without content or without parts (the TypeError the `catch` turns into null), or parts none of which has inline data all yield null |
| ChatStudio.Greeting | components/ChatStudio.tsx:28-31 | afternoon exactly for hours in [12, 19); night exactly from 19 or before 6; morning exactly for [6, 12) |
| ChatStudio.WelcomeMessage | components/ChatStudio.tsx:33-40 | the welcome is an assistant message without audio or sources whose text opens with the greeting for the hour |
| ChatStudio.UserMessage | components/ChatStudio.tsx:81-86 | the user's message carries the input exactly as typed, untrimmed, with no audio and no sources |
| ChatStudio.ReplyMessage | components/ChatStudio.tsx:95-116 | a success becomes an assistant message carrying the reply's text, audio and sources; a failure becomes the fixed apology with no audio and no sources |
| ChatStudio.PlaysAudio | components/ChatStudio.tsx:105 | a finished send plays audio exactly when the reply succeeded and carries a non-empty payload |
| ChatStudio.SendBlocked | components/ChatStudio.tsx:76 | a send is refused exactly when the input is empty or all white space, or a request is in flight |
| ChatStudio.ChatScreen.SendDisabled | components/ChatStudio.tsx:197 | the send button is disabled exactly when the current input is blank or a request is in flight, the same condition as the guard at line 76 |
| ChatStudio.ChatScreen.constructor | components/ChatStudio.tsx:7-16 | the screen mounts with an empty log, empty input, all flags down and no audio context |
| ChatStudio.ChatScreen.SetInput | components/ChatStudio.tsx:183 | typing replaces the input and nothing else |
| ChatStudio.ChatScreen.ShowWelcome | components/ChatStudio.tsx:26-43 | an empty log gets exactly the welcome for the hour; a non-empty log is left alone |
| ChatStudio.ChatScreen.InitAudio | components/ChatStudio.tsx:45-53 | the first call creates a fresh 24 kHz context; later calls return the same one |
| ChatStudio.ChatScreen.BeginPlayback | components/ChatStudio.tsx:55-58 | playback ensures a context and raises `isPlaying` only |
| ChatStudio.ChatScreen.EndPlayback | components/ChatStudio.tsx:70-72 | the `finally` of playback lowers `isPlaying` only |
| ChatStudio.ChatScreen.PlayAudio | components/ChatStudio.tsx:55-73 | playback always ends with `isPlaying` false, a context in place and the log untouched |
| ChatStudio.ChatScreen.BeginSend | components/ChatStudio.tsx:75-91 | refused exactly when the button is disabled, and then nothing changes; otherwise the untrimmed input is logged as a user message and returned, the input is cleared and `isProcessing` raised |
| ChatStudio.ChatScreen.FinishSend | components/ChatStudio.tsx:93-119 | exactly one assistant message is appended; audio is played only when the reply has some; `isProcessing` always ends false |
| ChatStudio.ChatScreen.HandleSend | components/ChatStudio.tsx:75-120 | an accepted send appends the user message, then the assistant message for the client's answer to that input, after the existing log; the input ends cleared and `isProcessing` false; `isPlaying` ends false when that answer's audio was played and is otherwise unchanged; a refused send changes nothing |
| ChatStudio.SendWhileBusyScenario | components/ChatStudio.tsx:76-91 | a second send while the first is in flight is refused, and the log holds only the first user message |
| ChatStudio.WelcomeOnceScenario | components/ChatStudio.tsx:26-43 | a fresh screen is greeted once, even if the mount effect runs twice |
| MuseumStudio.ResultText | components/MuseumStudio.tsx:31-38 | the result is the answer's text when truthy, else the not-found text; a failure shows the apology; never empty |
| MuseumStudio.InvestigationPromptQuotesQuery | components/MuseumStudio.tsx:21 | the research prompt holds the query verbatim between the fixed lead and style, so it can be read back |
| MuseumStudio.ResearchScreen.constructor | components/MuseumStudio.tsx:6-9 | mounts with an empty query, no result, no sources, not loading |
| MuseumStudio.ResearchScreen.SetQuery | components/MuseumStudio.tsx:55 | typing replaces the query only |
| MuseumStudio.ResearchScreen.StartLoading | components/MuseumStudio.tsx:13-15 | before the request, loading is raised and the previous result and sources are cleared; the query is untouched |
| MuseumStudio.ResearchScreen.BeginInvestigate | components/MuseumStudio.tsx:11-21 | refused exactly for a blank query, and then nothing changes; otherwise loading is raised, result and sources are cleared, and the research prompt for the query is returned |
| MuseumStudio.ResearchScreen.FinishInvestigate | components/MuseumStudio.tsx:31-41 | the result text is set; on success the sources are exactly the answer's web chunks; on failure they stay as they were; loading drops |
| MuseumStudio.ResearchScreen.HandleInvestigate | components/MuseumStudio.tsx:11-42 | accepted exactly for a non-blank query; then the result is the text for the service's answer, the sources are its web chunks (none after a failure), and loading ends false |
| MapsStudio.MapsChunks | components/MapsStudio.tsx:33-34 | every chunk kept cites a map place |
| MapsStudio.SearchPromptQuotesQuery | components/MapsStudio.tsx:19 | the place prompt holds the query verbatim between the fixed lead and style, so it can be read back |
| MapsStudio.MapsChunksAppend | components/MapsStudio.tsx:34 | the places of concatenated chunk lists are the concatenated places; every chunk citing a place is kept |
| MapsStudio.PlacesScreen.constructor | components/MapsStudio.tsx:6-8 | mounts with an empty query, no places, not loading |
| MapsStudio.PlacesScreen.SetQuery | components/MapsStudio.tsx:50 | typing replaces the query only |
| MapsStudio.PlacesScreen.StartLoading | components/MapsStudio.tsx:12-13 | before the request, loading is raised and the previous places are cleared; the query is untouched |
| MapsStudio.PlacesScreen.BeginSearch | components/MapsStudio.tsx:10-19 | refused exactly for a blank query, and then nothing changes; otherwise loading is raised, places are cleared, and the place prompt for the query is returned |
| MapsStudio.PlacesScreen.FinishSearch | components/MapsStudio.tsx:33-39 | on success the places are exactly the answer's map chunks; a failure leaves them as they were; loading drops |
| MapsStudio.PlacesScreen.HandleSearch | components/MapsStudio.tsx:10-40 | accepted exactly for a non-blank query; then the places are the answer's map chunks (none after a failure) and loading ends false |
| LiveStudio.AudioPayload | components/LiveStudio.tsx:121-122 | audio is played only from a message with a model turn, and the payload is never empty |
| LiveStudio.IsInterruption | components/LiveStudio.tsx:113 | a message is a barge-in exactly when it has server content whose `interrupted` flag is present and true |
| LiveStudio.AudioFromFirstInlinePart | components/LiveStudio.tsx:121-122 | when part k is the first with inline data, the payload is that part's data if it is non-empty, and there is none otherwise |
| LiveStudio.NoAudioCases | components/LiveStudio.tsx:121-122 | no server content, no model turn, a model turn without parts, or parts none of which has inline data all yield no audio |
| LiveStudio.Releases | components/LiveStudio.tsx:24-42 | at most four releases, none exactly when nothing is held; the frame timer, when held, is released first and the stream, when held, last |
| LiveStudio.TeardownReleasesExactlyHeld | components/LiveStudio.tsx:20-43 | teardown releases only held handles and every held handle, once each; with nothing held it releases nothing |
| LiveStudio.StopAll | components/LiveStudio.tsx:114-116 | one `stop()` per scheduled source, in order |
| LiveStudio.Without | components/LiveStudio.tsx:134 | removing a source keeps every other source and only those |
| LiveStudio.WithoutKeepsDistinct | components/LiveStudio.tsx:134 | removing a source keeps the set free of duplicates |
| LiveStudio.WithoutIsFilter | components/LiveStudio.tsx:134 | removing a source is filtering it out, so the remaining sources keep their insertion order |
| LiveStudio.Interrupt | components/LiveStudio.tsx:113-119 | barge-in appends one `stop()` per scheduled source in order after the existing log, empties the set and resets the clock to 0 |
| LiveStudio.Schedule | components/LiveStudio.tsx:126-133 | a decoded chunk appends one start at the later of clock and current time, moves the clock to that start plus the duration, and adds a fresh source id to the set |
| LiveStudio.DecodeFailed | components/LiveStudio.tsx:126-127 | a chunk whose decoding throws has already raised the clock to the later of clock and current time; the log and the set are unchanged |
| LiveStudio.Deliver | components/LiveStudio.tsx:112-135 | a message never shrinks the log or lowers the id counter; without an interruption the log is only extended and, for a valid duration, the clock never goes back; a message without audio, or with no context, only does the barge-in part |
| LiveStudio.Ended | components/LiveStudio.tsx:134 | an ended source leaves the set, every other source stays, and clock and log are untouched |
| LiveStudio.StepsKeepWellFormed | components/LiveStudio.tsx:112-135 | delivering a message or ending a source keeps the set duplicate-free and made only of handed-out sources |
| LiveStudio.InterruptionStopsEverything | components/LiveStudio.tsx:113-119 | an interruption stops every scheduled source, empties the set and resets the clock to 0 |
| LiveStudio.ChunkAfterInterruptionStartsNow | components/LiveStudio.tsx:113-132 | audio arriving with an interruption starts at the context's current time, after all the stops |
| LiveStudio.ChunkStartsAtMaxOfClockAndNow | components/LiveStudio.tsx:126-133 | a chunk starts at `max(clock, now)`; the clock then moves to its end and the new source joins the set |
| LiveStudio.NoContextSchedulesNothing | components/LiveStudio.tsx:122 | without a playback context a message changes nothing |
| LiveStudio.BackToBack | components/LiveStudio.tsx:126-132 | two successive chunks never overlap, and are back to back unless the context's time has overtaken the clock |
| LiveStudio.DecodeFailureOnlyRaisesClock | components/LiveStudio.tsx:126-127 | audio that fails to decode starts nothing, but the clock still moves to the later of clock and current time |
| LiveStudio.InterruptedDecodeFailureStartsNothing | components/LiveStudio.tsx:113-127 | a barge-in whose audio fails to decode stops every source, empties the set, starts nothing and leaves the clock at the context's time |
| LiveStudio.Run | components/LiveStudio.tsx:112-135 | over any run of deliveries, handled one after another, the id counter never goes back and the log never gets shorter |
| LiveStudio.DeliverStartsFresh | components/LiveStudio.tsx:112-135 | one message keeps the whole log it was given (a barge-in only appends stops) and starts at most one source, under an id in `[nextId, new nextId)` |
| LiveStudio.ExtendsFreshChains | components/LiveStudio.tsx:126-133 | two stretches of fresh starts, one after the other, form one: ids handed out later are above every id handed out earlier |
| LiveStudio.RunStartsFreshSources | components/LiveStudio.tsx:112-135 | over any run of deliveries the log it started from is kept as a prefix, and every source started during the run has an id at or above the counter before the run and below the counter after it, each larger than the one before, so no source id is ever reused |
| LiveStudio.GaplessFromEarlier | components/LiveStudio.tsx:126-132 | a run of chunks that starts no earlier than some time also starts no earlier than any earlier time |
| LiveStudio.RunWithoutInterruptionIsGapless | components/LiveStudio.tsx:126-132 | across any run of messages without an interruption, including chunks that fail to decode, each chunk starts no earlier than the previous one ends; the log only grows; the clock never decreases |
| LiveStudio.LiveSession.constructor | components/LiveStudio.tsx:8-18 | mounts idle, holding nothing, with the clock at 0 and no sources |
| LiveStudio.LiveSession.ReleaseFrameTimer | components/LiveStudio.tsx:24-27 | a held frame timer is cleared once and forgotten; with none held nothing is released |
| LiveStudio.LiveSession.ReleaseSession | components/LiveStudio.tsx:29-32 | a held session is closed once and forgotten; with none held nothing is released |
| LiveStudio.LiveSession.ReleaseContext | components/LiveStudio.tsx:34-37 | a held playback context is closed once and forgotten; with none held nothing is released |
| LiveStudio.LiveSession.ReleaseStream | components/LiveStudio.tsx:39-42 | the tracks of a shown stream are stopped once and the stream detached; with none shown nothing is released |
| LiveStudio.LiveSession.StopSession | components/LiveStudio.tsx:20-43 | goes idle, nulls every handle and appends exactly the releases of the handles held, in the source's order; clock and sources are untouched |
| LiveStudio.LiveSession.StartSession | components/LiveStudio.tsx:45-148 | opens the playback context; refused media tears everything down, the new context included; otherwise the stream is kept only with the camera on, and the session is kept |
| LiveStudio.LiveSession.OnOpen | components/LiveStudio.tsx:73-110 | greets; with the camera on it starts the frame timer; playback is untouched |
| LiveStudio.LiveSession.StopAllSources | components/LiveStudio.tsx:113-119 | the `forEach` loop stops each scheduled source in order, then the set is cleared and the clock reset, exactly as `Interrupt` says |
| LiveStudio.LiveSession.PlayChunk | components/LiveStudio.tsx:126-134 | a decoded chunk moves the playback state exactly as `Schedule` says; a failed decode exactly as `DecodeFailed` says |
| LiveStudio.LiveSession.OnMessage | components/LiveStudio.tsx:112-136 | the playback state moves exactly as `Deliver` says for the decode result given, whether the buffer decoded or the decoding threw; the handles are untouched |
| LiveStudio.LiveSession.OnSourceEnded | components/LiveStudio.tsx:134 | the ended source leaves the set; clock and log are untouched |
| LiveStudio.LiveSession.OnClose | components/LiveStudio.tsx:137 | the same teardown as `StopSession` |
| LiveStudio.LiveSession.OnError | components/LiveStudio.tsx:138-141 | the same teardown as `StopSession` |
| LiveStudio.LiveSession.Unmount | components/LiveStudio.tsx:151-153 | goes idle and nulls every handle, but releases only the timer, session and context that were held, in order: the video ref is already detached, so the stream's tracks are not stopped |
| LiveStudio.StopTwiceScenario | components/LiveStudio.tsx:20-43 | a camera session stopped twice releases timer, session, context and stream once, in that order; the second stop releases nothing |
| LiveStudio.AudioOnlySessionScenario | components/LiveStudio.tsx:54-61 | with the camera off, teardown releases only the session and the context, never the microphone stream |
| LiveStudio.UnmountCameraSessionScenario | components/LiveStudio.tsx:151-153 | leaving the screen during a camera session releases timer, session and context, and never stops the camera stream |
| LiveStudio.RestartKeepsClockScenario | components/LiveStudio.tsx:17-43 | after a stop, the first chunk of a new session is scheduled at the old clock value, not at 0 |

## Left out

- The generative-AI service, the browser media APIs and the 24 kHz/16 kHz audio contexts are not
  part of this model. Remote calls are `Remote` parameters; handles are naturals; the context's
  `currentTime` and the decoding's outcome are parameters of `OnMessage`.
- `utils/audioHelpers` (base64 decoding, PCM decoding and encoding) is not part of this model.
  The float-to-Int16 conversion of captured audio, `sendRealtimeInput` of audio and camera frames,
  and the canvas drawing inside the frame timer are I/O.
- The 16 kHz capture context and its script processor are not modelled as a handle. Teardown
  never closes that context.
- `onmessage` awaits `resume()` and `decodeAudioData` between reading the clock and starting the
  source. The decoding's outcome is a parameter of `OnMessage`: a duration, or none when the
  decoding throws (the clock has then already been raised). The model treats each callback as
  one atomic step, so interleavings of two messages inside that window are not captured. The same holds for two overlapping investigations started
  from the research screen's Enter key, and for two overlapping place searches: the search
  button (components/MapsStudio.tsx:55) is never disabled, so a second click can start a search
  while the first is still pending.
- `startSession` sets the stream only when `videoRef.current` exists. The model assumes the
  video element is rendered whenever the camera is on.
- A `stop()` that throws is swallowed in the source; it is recorded here as an ordinary `Stopped`
  effect.
- Suspended-context `resume()` calls, scrolling, the replay button of a past message, console
  logging, the camera toggle and all rendering are left out.
- `Date.now()` message ids and timestamps are left out; `Message` carries no id or timestamp.
- The image screen, the layout, the app shell and the audio visualiser are not part of this model.
- ChatStudio.ChatScreen.PlayAudio: does not model decoding or the wait for `onended`. Playback
  starts and ends in one call, so `isPlaying` is observed only as raised by `BeginPlayback` and
  lowered by `EndPlayback`.
- LiveStudio.LiveSession.OnMessage: requires a decoded buffer's duration to be non-negative, which
  the Web Audio API guarantees for every decoded buffer.
- The research screen stores the raw web chunks, which are rendered later; the rendering of
  titles and links is left out.

=== FILE: chat_studio.dfy ===
/**
 * The turn-based chat screen: an append-only conversation log, the text being typed, the three
 * UI flags, and a lazily created playback audio context. `handleSend` awaits the assistant
 * client, so it is modelled as two steps, `BeginSend` (everything before the `await`) and
 * `FinishSend` (everything after it); `HandleSend` runs both back to back.
 */
module ChatStudio {
  import opened Wrappers
  import opened Types
  import JsText
  import SdkResponse
  import GeminiService

  const ApologyText := "¡Ay, papachay! Se me cortó la señal del cerro. ¿Me lo repites, corazoncito?"
  const MorningGreeting := "¡Buen día"
  const AfternoonGreeting := "¡Buenas tardes"
  const NightGreeting := "¡Buenas noches"
  const WelcomeBody := ", corazoncito! ✨ Qué alegría tenerte por aquí. Saludos de parte de nuestro administrador, el señor Raúl. Bienvenido a Tintay, tesoro mío. Soy tu asistente Costumbres Tintay y estoy aquí para contarte todo lo lindo de mi pueblo. ¿Cómo te llamas, viditay? Cuéntame tu nombre para saludarte como te mereces."
  const PlaybackSampleRate: nat := 24000

  /** The greeting for an hour of the day: afternoon in [12, 19), night from 19 or before 6, morning otherwise. */
  function Greeting(hour: int): (g: string)
    ensures g == AfternoonGreeting <==> 12 <= hour < 19
    ensures g == NightGreeting <==> hour >= 19 || hour < 6
    ensures g == MorningGreeting <==> 6 <= hour < 12
  {
    if 12 <= hour < 19 then AfternoonGreeting
    else if hour >= 19 || hour < 6 then NightGreeting
    else MorningGreeting
  }

  /** The welcome shown on an empty log: an assistant message opening with the greeting for the hour. */
  function WelcomeMessage(hour: int): (m: Message)
    ensures m.role == Assistant && m.audioData.None? && m.sources.None?
    ensures |Greeting(hour)| <= |m.text| && m.text[..|Greeting(hour)|] == Greeting(hour)
  {
    Message(Assistant, Greeting(hour) + WelcomeBody, None, None)
  }

  /** The message recording what the user typed: the input as typed, untrimmed, with no audio or sources. */
  function UserMessage(text: string): (m: Message)
    ensures m.role == User && m.text == text && m.audioData.None? && m.sources.None?
  {
    Message(User, text, None, None)
  }

  /** The one assistant message a finished send appends: the reply, or the fixed apology. */
  function ReplyMessage(reply: Result<GeminiService.ChatReply, SdkResponse.RemoteError>): (m: Message)
    ensures m.role == Assistant
    ensures reply.Ok? ==> m.text == reply.value.text && m.audioData == reply.value.audioData
                          && m.sources == Some(reply.value.sources)
    ensures reply.Err? ==> m.text == ApologyText && m.audioData.None? && m.sources.None?
  {
    match reply
    case Ok(r) => Message(Assistant, r.text, r.audioData, Some(r.sources))
    case Err(_) => Message(Assistant, ApologyText, None, None)
  }

  /**
   * The send guard and the send button's disabled state: a send is refused exactly when the input
   * is empty or whitespace, or a request is in flight.
   */
  predicate SendBlocked(input: string, processing: bool): (b: bool)
    ensures b <==> JsText.IsBlank(input) || processing
  {
    JsText.TrimsToEmpty(input) || processing
  }

  /**
   * Whether a finished send plays the reply's audio (`if (response.audioData)`): only a successful
   * reply carrying a non-empty payload does.
   */
  predicate PlaysAudio(reply: Result<GeminiService.ChatReply, SdkResponse.RemoteError>): (b: bool)
    ensures b <==> reply.Ok? && reply.value.audioData.Some? && reply.value.audioData.value != ""
  {
    reply.Ok? && JsText.Truthy(reply.value.audioData)
  }

  /** A browser playback audio context, identified by the object itself. */
  class AudioContext {
    const sampleRate: nat

    constructor (sampleRate: nat)
      ensures this.sampleRate == sampleRate
    {
      this.sampleRate := sampleRate;
    }
  }

  class ChatScreen {
    var messages: seq<Message>
    var inputText: string
    var audioState: AudioProcessingState
    var audioContext: AudioContext?

    /** The screen as mounted, before the welcome effect runs. */
    constructor ()
      ensures messages == [] && inputText == "" && audioContext == null
      ensures audioState == AudioProcessingState(false, false, false)
    {
      messages := [];
      inputText := "";
      audioState := AudioProcessingState(false, false, false);
      audioContext := null;
    }

    /** The send button's `disabled` attribute: the same condition as the guard of `handleSend`. */
    predicate SendDisabled(): (b: bool)
      reads this
      ensures b <==> JsText.IsBlank(inputText) || audioState.isProcessing
    {
      SendBlocked(inputText, audioState.isProcessing)
    }

    /** The textarea's `onChange`. */
    method SetInput(text: string)
      modifies this
      ensures inputText == text
      ensures messages == old(messages) && audioState == old(audioState) && audioContext == old(audioContext)
    {
      inputText := text;
    }

    /** The mount effect: a welcome for the current hour, only when the log is empty. */
    method ShowWelcome(hour: int)
      modifies this
      ensures old(messages) == [] ==> messages == [WelcomeMessage(hour)]
      ensures old(messages) != [] ==> messages == old(messages)
      ensures inputText == old(inputText) && audioState == old(audioState) && audioContext == old(audioContext)
    {
      if |messages| == 0 {
        messages := [WelcomeMessage(hour)];
      }
    }

    /** `initAudio`: creates the 24 kHz playback context on first use and returns the same one afterwards. */
    method InitAudio() returns (ctx: AudioContext)
      modifies this
      ensures old(audioContext) != null ==> ctx == old(audioContext)
      ensures old(audioContext) == null ==> fresh(ctx) && ctx.sampleRate == PlaybackSampleRate
      ensures audioContext == ctx
      ensures messages == old(messages) && inputText == old(inputText) && audioState == old(audioState)
    {
      if audioContext == null {
        audioContext := new AudioContext(PlaybackSampleRate);
      }
      ctx := audioContext;
    }

    /** `playAudio` up to its `await`: the context is ensured and `isPlaying` is raised. */
    method BeginPlayback() returns (ctx: AudioContext)
      modifies this
      ensures old(audioContext) != null ==> ctx == old(audioContext)
      ensures old(audioContext) == null ==> fresh(ctx)
      ensures audioContext == ctx
      ensures audioState == old(audioState).(isPlaying := true)
      ensures messages == old(messages) && inputText == old(inputText)
    {
      ctx := InitAudio();
      audioState := audioState.(isPlaying := true);
    }

    /** The `finally` of `playAudio`: whether playback ended or decoding failed, `isPlaying` drops. */
    method EndPlayback()
      modifies this
      ensures audioState == old(audioState).(isPlaying := false)
      ensures messages == old(messages) && inputText == old(inputText) && audioContext == old(audioContext)
    {
      audioState := audioState.(isPlaying := false);
    }

    /** `playAudio`: always ends with `isPlaying` false and a playback context in place. */
    method PlayAudio()
      modifies this
      ensures audioState == old(audioState).(isPlaying := false)
      ensures audioContext != null && (old(audioContext) != null ==> audioContext == old(audioContext))
      ensures messages == old(messages) && inputText == old(inputText)
    {
      var _ := BeginPlayback();
      EndPlayback();
    }

    /**
     * `handleSend` up to its `await`. Refused (and nothing changes) when the send button is
     * disabled; otherwise the untrimmed input is logged as a user message, the input is cleared,
     * `isProcessing` is raised, and the text to send is returned.
     */
    method BeginSend() returns (request: Option<string>)
      modifies this
      ensures request.None? <==> old(SendDisabled())
      ensures request.None? ==> messages == old(messages) && inputText == old(inputText)
                                && audioState == old(audioState) && audioContext == old(audioContext)
      ensures request.Some? ==> request.value == old(inputText)
      ensures request.Some? ==> messages == old(messages) + [UserMessage(old(inputText))]
      ensures request.Some? ==> inputText == "" && audioState == old(audioState).(isProcessing := true)
      ensures request.Some? ==> audioContext != null && (old(audioContext) != null ==> audioContext == old(audioContext))
    {
      if JsText.TrimsToEmpty(inputText) || audioState.isProcessing {
        return None;
      }
      var _ := InitAudio();
      messages := messages + [UserMessage(inputText)];
      var currentInput := inputText;
      inputText := "";
      audioState := audioState.(isProcessing := true);
      request := Some(currentInput);
    }

    /**
     * `handleSend` after its `await`: exactly one assistant message is appended, the reply's
     * audio is played when there is any, and `isProcessing` is always lowered.
     */
    method FinishSend(reply: Result<GeminiService.ChatReply, SdkResponse.RemoteError>)
      modifies this
      ensures messages == old(messages) + [ReplyMessage(reply)]
      ensures inputText == old(inputText)
      ensures audioState == old(audioState).(isProcessing := false,
                                              isPlaying := if PlaysAudio(reply) then false else old(audioState.isPlaying))
      ensures !PlaysAudio(reply) ==> audioContext == old(audioContext)
      ensures PlaysAudio(reply) ==> audioContext != null && (old(audioContext) != null ==> audioContext == old(audioContext))
    {
      match reply {
        case Ok(response) =>
          messages := messages + [ReplyMessage(reply)];
          if JsText.Truthy(response.audioData) {
            PlayAudio();
          }
        case Err(_) =>
          messages := messages + [ReplyMessage(reply)];
      }
      audioState := audioState.(isProcessing := false);
    }

    /**
     * `handleSend` as a whole. An accepted send appends the user's message and then the
     * assistant's, in that order, after everything already in the log; the input ends cleared and
     * `isProcessing` ends false whatever the service did.
     */
    method HandleSend(chat: SdkResponse.Remote, tts: SdkResponse.Remote) returns (accepted: bool)
      modifies this
      ensures accepted == !old(SendDisabled())
      ensures !accepted ==> messages == old(messages) && inputText == old(inputText)
                            && audioState == old(audioState) && audioContext == old(audioContext)
      ensures accepted ==> messages == old(messages) + [UserMessage(old(inputText)),
                                                         ReplyMessage(GeminiService.GetChatResponse(old(inputText), chat, tts))]
      ensures accepted ==> inputText == "" && !audioState.isProcessing
      ensures accepted ==> audioState.isRecording == old(audioState.isRecording)
      ensures accepted ==> audioState.isPlaying == (if PlaysAudio(GeminiService.GetChatResponse(old(inputText), chat, tts))
                                                    then false else old(audioState.isPlaying))
      ensures accepted ==> audioContext != null && (old(audioContext) != null ==> audioContext == old(audioContext))
    {
      var request := BeginSend();
      accepted := request.Some?;
      if accepted {
        FinishSend(GeminiService.GetChatResponse(request.value, chat, tts));
      }
    }
  }

  /**
   * A second send while the first is still in flight is refused: after an accepted `BeginSend`,
   * `isProcessing` is up, so `BeginSend` again returns nothing and leaves the log alone.
   */
  method SendWhileBusyScenario(first: string, second: string) returns (log: seq<Message>, refused: bool)
    requires !JsText.IsBlank(first)
    ensures log == [UserMessage(first)]
    ensures refused
  {
    var screen := new ChatScreen();
    screen.SetInput(first);
    JsText.TrimEmptyIffBlank(first);
    var r1 := screen.BeginSend();
    screen.SetInput(second);
    var r2 := screen.BeginSend();
    log := screen.messages;
    refused := r2.None?;
  }

  /** A fresh screen greets once: the welcome effect adds one message, and running it again adds none. */
  method WelcomeOnceScenario(hour: int) returns (log: seq<Message>)
    ensures log == [WelcomeMessage(hour)]
    ensures |log| == 1 && log[0].role == Assistant
  {
    var screen := new ChatScreen();
    screen.ShowWelcome(hour);
    screen.ShowWelcome(hour);
    log := screen.messages;
  }
}

=== FILE: gemini_service.dfy ===
/**
 * The remote assistant client: how the answers of the generative-AI service are shaped into
 * `{text, audioData, sources}`, a base64 audio payload, or an image data URL. The service is
 * reached only through `Remote` parameters; their answers are arbitrary.
 */
module GeminiService {
  import opened Wrappers
  import opened SdkResponse
  import opened Types
  import JsText

  const ChatFallbackText := "¡Ay, corazoncito! No te escuché bien, ¿me lo repites por favor?"
  const DefaultSourceTitle := "Fuente de información"
  const DefaultSourceUri := "#"
  const ImageDataUrlPrefix := "data:image/png;base64,"

  /** What `getChatResponse` resolves to. */
  datatype ChatReply = ChatReply(text: string, audioData: Option<string>, sources: seq<Source>)

  /** The text of a chat answer, or the fixed fallback when the service returned none. */
  function ChatText(r: Response): (t: string)
    ensures t != ""
    ensures JsText.Truthy(r.text) ==> t == r.text.value
    ensures !JsText.Truthy(r.text) ==> t == ChatFallbackText
  {
    JsText.OrElse(r.text, ChatFallbackText)
  }

  /** The grounding chunks that cite a web page, in order. */
  function WebChunks(chunks: seq<GroundingChunk>): (r: seq<GroundingChunk>)
    ensures forall i | 0 <= i < |r| :: r[i].web.Some?
  {
    Filter(chunks, HasWeb)
  }

  /** One citation: a missing or empty title or uri is replaced by its default. */
  function SourceOf(w: WebRef): (s: Source)
    ensures s.title != "" && s.uri != ""
    ensures JsText.Truthy(w.title) ==> s.title == w.title.value
    ensures JsText.Truthy(w.uri) ==> s.uri == w.uri.value
    ensures !JsText.Truthy(w.title) ==> s.title == DefaultSourceTitle
    ensures !JsText.Truthy(w.uri) ==> s.uri == DefaultSourceUri
  {
    Source(JsText.OrElse(w.title, DefaultSourceTitle), JsText.OrElse(w.uri, DefaultSourceUri))
  }

  /** `chunks.filter(c => c.web).map(c => ({title, uri}))`. */
  function WebSources(chunks: seq<GroundingChunk>): (r: seq<Source>)
    ensures |r| == |WebChunks(chunks)|
    ensures forall i | 0 <= i < |r| :: r[i] == SourceOf(WebChunks(chunks)[i].web.value)
  {
    if chunks == [] then []
    else
      assert chunks == [chunks[0]] + chunks[1..];
      FilterAppend([chunks[0]], chunks[1..], HasWeb);
      (if chunks[0].web.Some? then [SourceOf(chunks[0].web.value)] else []) + WebSources(chunks[1..])
  }

  /** Sources of concatenated chunk lists are the concatenated sources: one per web chunk, in order. */
  lemma {:induction false} WebSourcesAppend(a: seq<GroundingChunk>, b: seq<GroundingChunk>)
    ensures WebSources(a + b) == WebSources(a) + WebSources(b)
  {
    FilterAppend(a, b, HasWeb);
    var l, r := WebSources(a + b), WebSources(a) + WebSources(b);
    assert |l| == |r|;
    forall i | 0 <= i < |l| ensures l[i] == r[i] {
      if i < |WebSources(a)| {
        assert WebChunks(a + b)[i] == WebChunks(a)[i];
      } else {
        assert WebChunks(a + b)[i] == WebChunks(b)[i - |WebSources(a)|];
      }
    }
  }

  /** A chunk without a web page contributes no source; a chunk with one contributes exactly one. */
  lemma WebSourcesOfOne(c: GroundingChunk)
    ensures c.web.None? ==> WebSources([c]) == []
    ensures c.web.Some? ==> WebSources([c]) == [SourceOf(c.web.value)]
  {

  }

  const SynthesisLead := "Dilo con voz de mujer peruana muy dulce, amable y maternal: "

  /** The prompt `synthesizeText` sends for `text`: the fixed voice instruction, then `text` verbatim. */
  function SynthesisPrompt(text: string): string {
    SynthesisLead + text
  }

  /** The text can be read back from the prompt: it sits verbatim after the fixed lead. */
  lemma SynthesisPromptQuotesText(text: string)
    ensures |SynthesisPrompt(text)| == |SynthesisLead| + |text|
    ensures SynthesisPrompt(text)[..|SynthesisLead|] == SynthesisLead
    ensures SynthesisPrompt(text)[|SynthesisLead|..] == text
  {
  }

  /** `response.candidates?.[0]?.content?.parts?.[0]?.inlineData?.data`. */
  function FirstPartData(r: Response): (d: Option<string>)
    ensures d.Some? <==>
      FirstCandidate(r).Some? && FirstCandidate(r).value.content.Some?
      && FirstCandidate(r).value.content.value.parts.Some?
      && |FirstCandidate(r).value.content.value.parts.value| > 0
      && FirstCandidate(r).value.content.value.parts.value[0].inlineData.Some?
      && FirstCandidate(r).value.content.value.parts.value[0].inlineData.value.data.Some?
    ensures d.Some? ==> d.value == FirstCandidate(r).value.content.value.parts.value[0].inlineData.value.data.value
  {
    match FirstCandidate(r)
    case None => None
    case Some(c) =>
      if c.content.None? || c.content.value.parts.None? || c.content.value.parts.value == [] then None
      else match c.content.value.parts.value[0].inlineData
        case None => None
        case Some(inline) => inline.data
  }

  /**
   * `synthesizeText(text)`: the audio of the first part of the first candidate, or undefined;
   * an error of the speech call is caught here and also yields undefined.
   */
  function SynthesizeText(text: string, tts: Remote): (audio: Option<string>)
    ensures tts(SynthesisPrompt(text)).Err? ==> audio.None?
    ensures tts(SynthesisPrompt(text)).Ok? ==> audio == FirstPartData(tts(SynthesisPrompt(text)).value)
  {
    match tts(SynthesisPrompt(text))
    case Err(_) => None
    case Ok(resp) => FirstPartData(resp)
  }

  /** Only the first part is read: when it carries no inline data, later parts are ignored. */
  lemma OnlyFirstPartIsSpoken(text: string, tts: Remote, c: Candidate, first: Part)
    requires tts(SynthesisPrompt(text)).Ok?
    requires tts(SynthesisPrompt(text)).value.candidates.Some?
    requires |tts(SynthesisPrompt(text)).value.candidates.value| > 0
    requires tts(SynthesisPrompt(text)).value.candidates.value[0] == c
    requires c.content.Some? && c.content.value.parts.Some? && |c.content.value.parts.value| > 0
    requires c.content.value.parts.value[0] == first && first.inlineData.None?
    ensures SynthesizeText(text, tts).None?
  {
  }

  /**
   * `getChatResponse(message)`: a failure of the chat call is re-thrown; otherwise the reply
   * carries the answer's text (or the fallback), the speech of that text, and one source per web
   * chunk. A failure of the speech call never fails the reply.
   */
  function GetChatResponse(message: string, chat: Remote, tts: Remote): (r: Result<ChatReply, RemoteError>)
    ensures chat(message).Err? <==> r.Err?
    ensures r.Err? ==> r.error == chat(message).error
    ensures r.Ok? ==> r.value.text == ChatText(chat(message).value)
    ensures r.Ok? ==> r.value.sources == WebSources(GroundingChunks(chat(message).value))
    ensures r.Ok? ==> r.value.audioData == SynthesizeText(r.value.text, tts)
  {
    match chat(message)
    case Err(e) => Err(e)
    case Ok(resp) =>
      var text := ChatText(resp);
      Ok(ChatReply(text, SynthesizeText(text, tts), WebSources(GroundingChunks(resp))))
  }

  /** A speech failure leaves a text-only reply: the call still succeeds, with no audio. */
  lemma SpeechFailureKeepsReply(message: string, chat: Remote, tts: Remote)
    requires chat(message).Ok?
    requires tts(SynthesisPrompt(ChatText(chat(message).value))).Err?
    ensures GetChatResponse(message, chat, tts).Ok?
    ensures GetChatResponse(message, chat, tts).value.audioData.None?
  {
  }

  /** An answer without web chunks (or without metadata at all) yields a reply without sources. */
  lemma NoWebChunksNoSources(message: string, chat: Remote, tts: Remote)
    requires chat(message).Ok?
    requires forall c | c in GroundingChunks(chat(message).value) :: c.web.None?
    ensures GetChatResponse(message, chat, tts).value.sources == []
  {
    var cs := GroundingChunks(chat(message).value);
    FilterExtremes(cs, HasWeb);
  }

  const ImageLead := "Representación artística de Tintay, Apurímac: "
  const ImageStyle := ". Estilo fotográfico realista, colores vibrantes, luz de montaña."

  /** The prompt `generateTintayImage` sends for `prompt`: `prompt` verbatim between the fixed lead and style. */
  function ImagePrompt(prompt: string): string {
    ImageLead + prompt + ImageStyle
  }

  /**
   * The prompt can be read back from the prompt: it sits verbatim after the fixed lead and before
   * the fixed style.
   */
  lemma ImagePromptQuotesPrompt(prompt: string)
    ensures |ImagePrompt(prompt)| == |ImageLead| + |prompt| + |ImageStyle|
    ensures var p := ImagePrompt(prompt);
      p[..|ImageLead|] == ImageLead
      && p[|ImageLead|..|p| - |ImageStyle|] == prompt
      && p[|p| - |ImageStyle|..] == ImageStyle
  {
  }

  /** A template literal `${d}` of a `string | undefined` value: the string itself, or "undefined". */
  function Interpolate(d: Option<string>): (s: string)
    ensures d.Some? ==> s == d.value
    ensures d.None? ==> s == "undefined"
  {
    if d.Some? then d.value else "undefined"
  }

  /**
   * `generateTintayImage(prompt)`: a PNG data URL built from the first part that has inline data,
   * or null when no part has any. Reading `candidates[0].content.parts` without optional chaining
   * throws on a missing candidate, content or parts list; that error, like a failure of the call,
   * is caught and yields null.
   */
  function GenerateTintayImage(prompt: string, remote: Remote): (url: Option<string>)
    ensures url.Some? ==> remote(ImagePrompt(prompt)).Ok?
    ensures url.Some? ==> |ImageDataUrlPrefix| <= |url.value| && url.value[..|ImageDataUrlPrefix|] == ImageDataUrlPrefix
  {
    match remote(ImagePrompt(prompt))
    case Err(_) => None
    case Ok(resp) =>
      match FirstCandidate(resp)
      case None => None
      case Some(c) =>
        if c.content.None? || c.content.value.parts.None? then None
        else
          var parts := c.content.value.parts.value;
          match FirstInlineIndex(parts)
          case None => None
          case Some(k) => Some(ImageDataUrlPrefix + Interpolate(parts[k].inlineData.value.data))
  }

  /**
   * When the answer lists parts and part k is the first with inline data, the image is exactly
   * that part's data behind the PNG prefix; when no part has inline data the result is null.
   */
  lemma ImageFromFirstInlinePart(prompt: string, remote: Remote, parts: seq<Part>, k: nat)
    requires remote(ImagePrompt(prompt)).Ok?
    requires FirstCandidate(remote(ImagePrompt(prompt)).value).Some?
    requires FirstCandidate(remote(ImagePrompt(prompt)).value).value.content == Some(Content(Some(parts)))
    requires k < |parts| && parts[k].inlineData.Some?
    requires forall j | 0 <= j < k :: parts[j].inlineData.None?
    ensures GenerateTintayImage(prompt, remote) == Some(ImageDataUrlPrefix + Interpolate(parts[k].inlineData.value.data))
  {

  }

  /**
   * No part with inline data, a call that fails, a response without candidates, or a first
   * candidate without content or without parts (a TypeError, caught): null.
   */
  lemma NoImageCases(prompt: string, remote: Remote)
    ensures remote(ImagePrompt(prompt)).Err? ==> GenerateTintayImage(prompt, remote).None?
    ensures remote(ImagePrompt(prompt)).Ok? && FirstCandidate(remote(ImagePrompt(prompt)).value).None?
            ==> GenerateTintayImage(prompt, remote).None?
    ensures remote(ImagePrompt(prompt)).Ok? && FirstCandidate(remote(ImagePrompt(prompt)).value).Some?
            && (FirstCandidate(remote(ImagePrompt(prompt)).value).value.content.None?
                || FirstCandidate(remote(ImagePrompt(prompt)).value).value.content.value.parts.None?)
            ==> GenerateTintayImage(prompt, remote).None?
    ensures remote(ImagePrompt(prompt)).Ok? && FirstCandidate(remote(ImagePrompt(prompt)).value).Some?
            && FirstCandidate(remote(ImagePrompt(prompt)).value).value.content.Some?
            && FirstCandidate(remote(ImagePrompt(prompt)).value).value.content.value.parts.Some?
            && (forall p | p in FirstCandidate(remote(ImagePrompt(prompt)).value).value.content.value.parts.value
                  :: p.inlineData.None?)
            ==> GenerateTintayImage(prompt, remote).None?
  {
  }
}

=== FILE: js_text.dfy ===
/**
 * The part of JavaScript's string semantics the screens rely on: `String.prototype.trim`
 * and the truthiness of a string. Every input guard in the client is `if (!s.trim()) return;`.
 */
module JsText {
  import opened Wrappers

  /**
   * The code points `trim` removes: WhiteSpace and LineTerminator of ECMAScript
   * (ECMA-262, sections 12.2 and 12.3), including the Unicode space separators (category Zs).
   */
  predicate IsWhitespace(c: char) {
    c == '\t' || c == '\U{000B}' || c == '\U{000C}' || c == ' ' || c == '\U{00A0}' || c == '\U{FEFF}'
    || c == '\n' || c == '\r' || c == '\U{2028}' || c == '\U{2029}'
    || c == '\U{1680}' || ('\U{2000}' <= c <= '\U{200A}') || c == '\U{202F}' || c == '\U{205F}'
    || c == '\U{3000}'
  }

  /** Every character of `s` is whitespace (the empty string included). */
  predicate IsBlank(s: string) {
    forall i | 0 <= i < |s| :: IsWhitespace(s[i])
  }

  /** Drops leading whitespace: the result is a suffix of `s` and all that was dropped is whitespace. */
  function TrimStart(s: string): (r: string)
    ensures |r| <= |s| && r == s[|s| - |r|..]
    ensures IsBlank(s[..|s| - |r|])
    ensures r == [] || !IsWhitespace(r[0])
    decreases |s|
  {
    if s != [] && IsWhitespace(s[0]) then
      var r := TrimStart(s[1..]);
      assert s[..|s| - |r|] == [s[0]] + s[1..][..|s[1..]| - |r|];
      r
    else s
  }

  /** Drops trailing whitespace: the result is a prefix of `s` and all that was dropped is whitespace. */
  function TrimEnd(s: string): (r: string)
    ensures |r| <= |s| && r == s[..|r|]
    ensures IsBlank(s[|r|..])
    ensures r == [] || !IsWhitespace(r[|r| - 1])
    decreases |s|
  {
    if s != [] && IsWhitespace(s[|s| - 1]) then
      var r := TrimEnd(s[..|s| - 1]);
      assert s[|r|..] == s[..|s| - 1][|r|..] + [s[|s| - 1]];
      r
    else s
  }

  /** `s.trim()`. */
  function Trim(s: string): (r: string)
    ensures |r| <= |s|
    ensures r == [] || (!IsWhitespace(r[0]) && !IsWhitespace(r[|r| - 1]))
  {
    TrimEnd(TrimStart(s))
  }

  /** `!s.trim()` holds exactly when `s` is empty or made only of whitespace. */
  lemma TrimEmptyIffBlank(s: string)
    ensures Trim(s) == [] <==> IsBlank(s)
  {

  }

  /** `!s.trim()`, the guard every input handler starts with: true exactly for a blank `s`. */
  function TrimsToEmpty(s: string): (b: bool)
    ensures b <==> IsBlank(s)
  {
    TrimEmptyIffBlank(s);
    Trim(s) == ""
  }

  /** The truthiness of a `string | undefined` value: present and not empty. */
  predicate Truthy(s: Option<string>) {
    s.Some? && s.value != ""
  }

  /** `s || fallback` for a `string | undefined` value. */
  function OrElse(s: Option<string>, fallback: string): (r: string)
    ensures Truthy(s) ==> r == s.value
    ensures !Truthy(s) ==> r == fallback
    ensures fallback != "" ==> r != ""
  {
    if Truthy(s) then s.value else fallback
  }
}

=== FILE: live_studio.dfy ===
/**
 * The live voice/video session screen. Its refs are the fields of `LiveSession`: a frame timer,
 * the remote session, the 24 kHz playback context and the camera stream (each nullable), the
 * playback clock `nextStartTime`, and the set of scheduled playback sources. Every callback is
 * one atomic step. The browser and the SDK are represented only by the handles they hand out
 * and by `effects`, the log of the calls the screen makes on them (`start`, `stop`, releases).
 */
module LiveStudio {
  import opened Wrappers
  import SdkResponse
  import JsText

  const IdleStatus := "En reposo... despiértame para conversar."
  const ConnectingStatus := "Costumbres Tintay está despertando..."
  const ListeningStatus := "¡Hola, corazoncito! Costumbres Tintay te escucha..."

  /** A playback source node; each scheduled chunk gets a new one. */
  type SourceId = nat

  /** A `setInterval` id; browsers hand out positive ids, so a held timer is always truthy. */
  type TimerId = t: int | t > 0 witness 1

  datatype Resource = FrameTimer(timer: TimerId) | Session(session: nat) | Context(context: nat) | Stream(stream: nat)

  /** A call the screen makes on the browser or the SDK. */
  datatype Effect =
    | Started(source: SourceId, at: real, duration: real)   // source.start(at) of a buffer lasting `duration`
    | Stopped(source: SourceId)                             // source.stop()
    | Released(resource: Resource)                          // clearInterval, session.close, context.close, track.stop

  datatype ServerContent = ServerContent(interrupted: Option<bool>, modelTurn: Option<SdkResponse.Content>)

  /** One inbound message of the streaming connection. */
  datatype LiveMessage = LiveMessage(serverContent: Option<ServerContent>)

  /**
   * `msg.serverContent?.interrupted` read as a condition: a message is a barge-in only when it has
   * server content whose optional flag is present and true.
   */
  predicate IsInterruption(m: LiveMessage): (b: bool)
    ensures b <==> m.serverContent.Some? && m.serverContent.value.interrupted.Some?
                   && m.serverContent.value.interrupted.value
  {
    m.serverContent.Some? && m.serverContent.value.interrupted == Some(true)
  }

  /**
   * `msg.serverContent?.modelTurn?.parts.find(p => p.inlineData)?.inlineData?.data`, kept only
   * when truthy. A model turn without `parts` makes `.find` throw, which ends the handler before
   * any audio is scheduled, just as when there is no payload.
   */
  function AudioPayload(m: LiveMessage): (a: Option<string>)
    ensures a.Some? ==> a.value != ""
    ensures a.Some? ==> m.serverContent.Some? && m.serverContent.value.modelTurn.Some?
  {
    if m.serverContent.None? || m.serverContent.value.modelTurn.None? then None
    else
      var turn := m.serverContent.value.modelTurn.value;
      if turn.parts.None? then None
      else match SdkResponse.FirstInlineIndex(turn.parts.value)
        case None => None
        case Some(k) =>
          var d := turn.parts.value[k].inlineData.value.data;
          if d.Some? && d.value != "" then d else None
  }

  /**
   * The payload is the data of the first part with inline data, kept exactly when it is truthy;
   * the data of later parts is never used, and a model turn without parts carries none.
   */
  lemma AudioFromFirstInlinePart(m: LiveMessage, parts: seq<SdkResponse.Part>, k: nat)
    requires m.serverContent.Some? && m.serverContent.value.modelTurn == Some(SdkResponse.Content(Some(parts)))
    requires SdkResponse.FirstInlineIndex(parts) == Some(k)
    ensures JsText.Truthy(parts[k].inlineData.value.data) ==> AudioPayload(m) == parts[k].inlineData.value.data
    ensures !JsText.Truthy(parts[k].inlineData.value.data) ==> AudioPayload(m).None?
  {
  }

  /** No model turn, a model turn without parts, or parts none of which has inline data: no audio. */
  lemma NoAudioCases(m: LiveMessage)
    ensures m.serverContent.None? || m.serverContent.value.modelTurn.None? ==> AudioPayload(m).None?
    ensures m.serverContent.Some? && m.serverContent.value.modelTurn == Some(SdkResponse.Content(None))
            ==> AudioPayload(m).None?
    ensures m.serverContent.Some? && m.serverContent.value.modelTurn.Some?
            && m.serverContent.value.modelTurn.value.parts.Some?
            && (forall p | p in m.serverContent.value.modelTurn.value.parts.value :: p.inlineData.None?)
            ==> AudioPayload(m).None?
  {
  }

  /** The four nullable handles `stopSession` tears down. */
  datatype Handles = Handles(timer: Option<TimerId>, session: Option<nat>, context: Option<nat>, stream: Option<nat>)

  const NoHandles := Handles(None, None, None, None)

  /** Whether `h` holds resource `r`. */
  predicate Holds(h: Handles, r: Resource) {
    match r
    case FrameTimer(t) => h.timer == Some(t)
    case Session(s) => h.session == Some(s)
    case Context(c) => h.context == Some(c)
    case Stream(s) => h.stream == Some(s)
  }

  /** The releases `stopSession` performs, in its order: timer, session, context, stream tracks. */
  function Releases(h: Handles): (r: seq<Effect>)
    ensures |r| <= 4 && (r == [] <==> h == NoHandles)
    ensures h.timer.Some? ==> r[0] == Released(FrameTimer(h.timer.value))
    ensures h.stream.Some? ==> r[|r| - 1] == Released(Stream(h.stream.value))
  {
    (if h.timer.Some? then [Released(FrameTimer(h.timer.value))] else [])
    + (if h.session.Some? then [Released(Session(h.session.value))] else [])
    + (if h.context.Some? then [Released(Context(h.context.value))] else [])
    + (if h.stream.Some? then [Released(Stream(h.stream.value))] else [])
  }

  /**
   * Teardown releases exactly the resources held: every release is of a held handle, every held
   * handle is released, each once; with nothing held it releases nothing.
   */
  lemma TeardownReleasesExactlyHeld(h: Handles)
    ensures forall e | e in Releases(h) :: e.Released? && Holds(h, e.resource)
    ensures forall r | Holds(h, r) :: Released(r) in Releases(h)
    ensures |Releases(h)| == (if h.timer.Some? then 1 else 0) + (if h.session.Some? then 1 else 0)
                             + (if h.context.Some? then 1 else 0) + (if h.stream.Some? then 1 else 0)
    ensures Releases(h) == [] <==> h == NoHandles
  {
  }

  /** Four conditional releases appended one after another make up `Releases`. */
  lemma ReleasesInOrder(h: Handles, e0: seq<Effect>, e1: seq<Effect>, e2: seq<Effect>, e3: seq<Effect>, e4: seq<Effect>)
    requires e1 == e0 + (if h.timer.Some? then [Released(FrameTimer(h.timer.value))] else [])
    requires e2 == e1 + (if h.session.Some? then [Released(Session(h.session.value))] else [])
    requires e3 == e2 + (if h.context.Some? then [Released(Context(h.context.value))] else [])
    requires e4 == e3 + (if h.stream.Some? then [Released(Stream(h.stream.value))] else [])
    ensures e4 == e0 + Releases(h)
  {
  }

  // ---------------------------------------------------------------------------------------------
  // Playback scheduling, as values

  /** The playback part of the session: clock, scheduled sources (in insertion order), next id, and the call log. */
  datatype Playback = Playback(clock: real, sources: seq<SourceId>, nextId: SourceId, log: seq<Effect>)

  function Max(a: real, b: real): (m: real)
    ensures m >= a && m >= b && (m == a || m == b)
  {
    if a >= b then a else b
  }

  /** One `stop()` per source, in the set's iteration order. */
  function StopAll(sources: seq<SourceId>): (es: seq<Effect>)
    ensures |es| == |sources|
    ensures forall i | 0 <= i < |sources| :: es[i] == Stopped(sources[i])
  {
    if sources == [] then [] else StopAll(sources[..|sources| - 1]) + [Stopped(sources[|sources| - 1])]
  }

  /** Barge-in: stop every scheduled source, empty the set, reset the clock to 0. */
  function Interrupt(p: Playback): (q: Playback)
    ensures q.clock == 0.0 && q.sources == [] && q.nextId == p.nextId
    ensures |q.log| == |p.log| + |p.sources| && q.log[..|p.log|] == p.log
    ensures forall i | 0 <= i < |p.sources| :: q.log[|p.log| + i] == Stopped(p.sources[i])
  {
    Playback(0.0, [], p.nextId, p.log + StopAll(p.sources))
  }

  /**
   * Schedule one decoded chunk with a fresh source, starting no earlier than the clock or the
   * context's time, and move the clock to its end.
   */
  function Schedule(p: Playback, now: real, duration: real): (q: Playback)
    ensures |q.log| == |p.log| + 1 && q.log[..|p.log|] == p.log
    ensures var e := q.log[|p.log|];
      e.Started? && e.source == p.nextId && e.duration == duration
      && e.at >= p.clock && e.at >= now && (e.at == p.clock || e.at == now)
      && q.clock == e.at + duration
    ensures q.sources == p.sources + [p.nextId] && q.nextId == p.nextId + 1
  {
    var at := Max(p.clock, now);
    Playback(at + duration, p.sources + [p.nextId], p.nextId + 1, p.log + [Started(p.nextId, at, duration)])
  }

  /**
   * A chunk whose decoding failed: the clock was already raised to `max(clock, now)` before the
   * decode was awaited, and nothing is started.
   */
  function DecodeFailed(p: Playback, now: real): (q: Playback)
    ensures q.clock >= p.clock && q.clock >= now && (q.clock == p.clock || q.clock == now)
    ensures q.sources == p.sources && q.nextId == p.nextId && q.log == p.log
  {
    p.(clock := Max(p.clock, now))
  }

  /**
   * The `onmessage` handler: an interruption first, then the message's audio when there is a
   * playback context. `now` is the context's current time; `decoded` is the decoded buffer's
   * duration, or None when `decodeAudioData` rejected.
   */
  function Deliver(p: Playback, m: LiveMessage, hasContext: bool, now: real, decoded: Option<real>): (q: Playback)
    ensures q.nextId >= p.nextId && |q.log| >= |p.log|
    ensures !IsInterruption(m) ==> q.log[..|p.log|] == p.log
    ensures !IsInterruption(m) && (decoded.Some? ==> decoded.value >= 0.0) ==> q.clock >= p.clock
    ensures AudioPayload(m).None? || !hasContext ==> q == (if IsInterruption(m) then Interrupt(p) else p)
  {
    var q := if IsInterruption(m) then Interrupt(p) else p;
    if AudioPayload(m).Some? && hasContext then
      match decoded
      case Some(duration) => Schedule(q, now, duration)
      case None => DecodeFailed(q, now)
    else q
  }

  /** `set.delete(id)`. */
  function Without(s: seq<SourceId>, id: SourceId): (r: seq<SourceId>)
    ensures forall x | x in r :: x in s && x != id
    ensures forall x | x in s && x != id :: x in r
  {
    if s == [] then [] else (if s[0] == id then [] else [s[0]]) + Without(s[1..], id)
  }

  /** A source's `onended`: it leaves the set; clock and log are untouched. */
  function Ended(p: Playback, id: SourceId): (q: Playback)
    ensures q.clock == p.clock && q.nextId == p.nextId && q.log == p.log
    ensures id !in q.sources
    ensures forall x :: x in q.sources <==> x in p.sources && x != id
  {
    p.(sources := Without(p.sources, id))
  }

  predicate Distinct(s: seq<SourceId>) {
    forall i, j | 0 <= i < j < |s| :: s[i] != s[j]
  }

  /** The set holds each source once, and only sources already handed out. */
  predicate SourcesWellFormed(sources: seq<SourceId>, nextId: SourceId) {
    Distinct(sources) && forall x | x in sources :: x < nextId
  }

  predicate WellFormed(p: Playback) {
    SourcesWellFormed(p.sources, p.nextId)
  }

  lemma {:induction false} WithoutKeepsDistinct(s: seq<SourceId>, id: SourceId)
    requires Distinct(s)
    ensures Distinct(Without(s, id))
  {
    if s != [] {
      WithoutKeepsDistinct(s[1..], id);
      assert s[0] !in s[1..];
    }
  }

  /**
   * `set.delete` keeps insertion order: removing a source is filtering it out, so the sources
   * that stay are stopped later in the order they were started.
   */
  lemma {:induction false} WithoutIsFilter(s: seq<SourceId>, id: SourceId)
    ensures Without(s, id) == SdkResponse.Filter(s, x => x != id)
  {
    if s != [] {
      WithoutIsFilter(s[1..], id);
    }
  }

  /** Delivering a message and ending a source keep the set well formed. */
  lemma StepsKeepWellFormed(p: Playback, m: LiveMessage, hasContext: bool, now: real, decoded: Option<real>, id: SourceId)
    requires WellFormed(p)
    ensures WellFormed(Deliver(p, m, hasContext, now, decoded))
    ensures WellFormed(Ended(p, id))
  {
    WithoutKeepsDistinct(p.sources, id);
    var q := if IsInterruption(m) then Interrupt(p) else p;
    assert WellFormed(q);
    var s := q.sources + [q.nextId];
    forall i, j | 0 <= i < j < |s| ensures s[i] != s[j] {
      if j == |q.sources| {
        assert s[i] in q.sources;
      }
    }
  }

  /** An interruption stops every scheduled source, in order, empties the set and resets the clock to exactly 0. */
  lemma InterruptionStopsEverything(p: Playback, m: LiveMessage, hasContext: bool, now: real, decoded: Option<real>)
    requires IsInterruption(m)
    requires AudioPayload(m).None? || !hasContext
    ensures Deliver(p, m, hasContext, now, decoded).clock == 0.0
    ensures Deliver(p, m, hasContext, now, decoded).sources == []
    ensures Deliver(p, m, hasContext, now, decoded).log == p.log + StopAll(p.sources)
    ensures forall s | s in p.sources :: Stopped(s) in Deliver(p, m, hasContext, now, decoded).log
  {

  }

  /** Audio carried with an interruption is scheduled against the reset clock: at `now` itself. */
  lemma ChunkAfterInterruptionStartsNow(p: Playback, m: LiveMessage, now: real, duration: real)
    requires IsInterruption(m) && AudioPayload(m).Some? && now >= 0.0
    ensures Deliver(p, m, true, now, Some(duration)).log == p.log + StopAll(p.sources) + [Started(p.nextId, now, duration)]
    ensures Deliver(p, m, true, now, Some(duration)).clock == now + duration
  {
  }

  /**
   * An audio chunk starts at `max(clock, now)`; afterwards the clock is that start plus the
   * chunk's duration, and the new source is in the set.
   */
  lemma ChunkStartsAtMaxOfClockAndNow(p: Playback, m: LiveMessage, now: real, duration: real)
    requires !IsInterruption(m) && AudioPayload(m).Some?
    ensures var q := Deliver(p, m, true, now, Some(duration));
      q.log == p.log + [Started(p.nextId, Max(p.clock, now), duration)]
      && q.clock == Max(p.clock, now) + duration
      && q.sources == p.sources + [p.nextId]
  {
  }

  /** Without a playback context (after teardown, say) audio schedules nothing and leaves clock and set alone. */
  lemma NoContextSchedulesNothing(p: Playback, m: LiveMessage, now: real, decoded: Option<real>)
    requires !IsInterruption(m)
    ensures Deliver(p, m, false, now, decoded) == p
  {
  }

  /**
   * Two successive chunks without an interruption between them never overlap: the second starts
   * no earlier than the first ends, and exactly when it ends if the context's time has not
   * overtaken the clock.
   */
  lemma BackToBack(p: Playback, m1: LiveMessage, now1: real, d1: real, m2: LiveMessage, now2: real, d2: real)
    requires AudioPayload(m1).Some? && AudioPayload(m2).Some? && !IsInterruption(m2)
    ensures var q1 := Deliver(p, m1, true, now1, Some(d1));
      var q2 := Deliver(q1, m2, true, now2, Some(d2));
      var first := q1.log[|q1.log| - 1];
      var second := q2.log[|q2.log| - 1];
      first.Started? && second.Started? && first.duration == d1
      && second.at >= first.at + d1
      && (now2 <= first.at + d1 ==> second.at == first.at + d1)
  {
  }

  /**
   * A message whose audio could not be decoded still raises the clock to `max(clock, now)`, but
   * starts nothing and leaves the set alone.
   */
  lemma DecodeFailureOnlyRaisesClock(p: Playback, m: LiveMessage, now: real)
    requires !IsInterruption(m) && AudioPayload(m).Some?
    ensures Deliver(p, m, true, now, None) == p.(clock := Max(p.clock, now))
  {
  }

  /**
   * Barge-in carrying audio that then fails to decode: every source is stopped and the set
   * emptied, nothing starts, and the clock, reset to 0, has been raised to the context's time.
   */
  lemma InterruptedDecodeFailureStartsNothing(p: Playback, m: LiveMessage, now: real)
    requires IsInterruption(m) && AudioPayload(m).Some? && now >= 0.0
    ensures var q := Deliver(p, m, true, now, None);
      q.clock == now && q.sources == [] && q.nextId == p.nextId && q.log == p.log + StopAll(p.sources)
  {
  }

  /** One delivered message: what arrived, the context time, and the decoded buffer's duration if any. */
  datatype Delivery = Delivery(msg: LiveMessage, now: real, decoded: Option<real>)

  /**
   * A run of deliveries while the playback context is open, each message handled in full before
   * the next; ids are never reused and the effect log never shrinks.
   */
  function Run(p: Playback, ds: seq<Delivery>): (q: Playback)
    ensures q.nextId >= p.nextId && |q.log| >= |p.log|
    decreases |ds|
  {
    if ds == [] then p else Run(Deliver(p, ds[0].msg, true, ds[0].now, ds[0].decoded), ds[1..])
  }

  /** Every `start` in `log` uses an id in `[lo, hi)`, and each uses a larger id than the one before. */
  predicate FreshStarts(log: seq<Effect>, lo: SourceId, hi: SourceId) {
    (forall i | 0 <= i < |log| && log[i].Started? :: lo <= log[i].source < hi)
    && (forall i, j | 0 <= i < j < |log| && log[i].Started? && log[j].Started? :: log[i].source < log[j].source)
  }

  /** Fresh starts below `mid` followed by fresh starts from `mid` are fresh starts over the whole range. */
  lemma FreshStartsAppend(a: seq<Effect>, b: seq<Effect>, lo: SourceId, mid: SourceId, hi: SourceId)
    requires FreshStarts(a, lo, mid) && FreshStarts(b, mid, hi) && lo <= mid <= hi
    ensures FreshStarts(a + b, lo, hi)
  {
    var c := a + b;
    forall i, j | 0 <= i < j < |c| && c[i].Started? && c[j].Started?
      ensures c[i].source < c[j].source
    {
      if j < |a| {
        assert c[i] == a[i] && c[j] == a[j];
      } else if i < |a| {
        assert c[i] == a[i] && c[j] == b[j - |a|];
      } else {
        assert c[i] == b[i - |a|] && c[j] == b[j - |a|];
      }
    }
    forall i | 0 <= i < |c| && c[i].Started?
      ensures lo <= c[i].source < hi
    {
      if i < |a| { assert c[i] == a[i]; } else { assert c[i] == b[i - |a|]; }
    }
  }

  /** `q` keeps `p`'s log and, after it, starts sources only under fresh ids in `[p.nextId, q.nextId)`. */
  predicate ExtendsFresh(p: Playback, q: Playback) {
    p.nextId <= q.nextId && |p.log| <= |q.log| && q.log[..|p.log|] == p.log
    && FreshStarts(q.log[|p.log|..], p.nextId, q.nextId)
  }

  /** Extending fresh twice is extending fresh once: the two stretches of starts chain. */
  lemma ExtendsFreshChains(p: Playback, q: Playback, r: Playback)
    requires ExtendsFresh(p, q) && ExtendsFresh(q, r)
    ensures ExtendsFresh(p, r)
  {
    assert r.log[..|p.log|] == r.log[..|q.log|][..|p.log|];
    assert r.log[|p.log|..] == q.log[|p.log|..] + r.log[|q.log|..];
    FreshStartsAppend(q.log[|p.log|..], r.log[|q.log|..], p.nextId, q.nextId, r.nextId);
  }

  /** The barge-in part of a delivery keeps the log and the counter and appends only stops. */
  lemma BargeInStartsNothing(p: Playback, q0: Playback)
    requires q0 == p || q0 == Interrupt(p)
    ensures q0.nextId == p.nextId && |p.log| <= |q0.log| && q0.log == p.log + q0.log[|p.log|..]
    ensures forall i | |p.log| <= i < |q0.log| :: !q0.log[i].Started?
  {
    if q0 == Interrupt(p) {
      assert forall i | |p.log| <= i < |q0.log| :: q0.log[i] == Stopped(p.sources[i - |p.log|]);
    }
  }

  /** Stops followed by one start under the next id extend the log with fresh starts. */
  lemma ScheduleAfterStopsIsFresh(p: Playback, q0: Playback, now: real, duration: real)
    requires q0.nextId == p.nextId && |p.log| <= |q0.log| && q0.log == p.log + q0.log[|p.log|..]
    requires forall i | |p.log| <= i < |q0.log| :: !q0.log[i].Started?
    ensures ExtendsFresh(p, Schedule(q0, now, duration))
  {
    var q := Schedule(q0, now, duration);
    var stops := q0.log[|p.log|..];
    var e := q.log[|q0.log|];
    assert q.log == q0.log + [e];
    assert q.log == p.log + (stops + [e]);
    var c := stops + [e];
    assert forall i | 0 <= i < |stops| :: c[i] == stops[i] && !c[i].Started?;
    assert q.log[|p.log|..] == c;
  }

  /** Stops alone extend the log with fresh starts: there are none. */
  lemma StopsAreFresh(p: Playback, q: Playback)
    requires p.nextId <= q.nextId && |p.log| <= |q.log| && q.log == p.log + q.log[|p.log|..]
    requires forall i | |p.log| <= i < |q.log| :: !q.log[i].Started?
    ensures ExtendsFresh(p, q)
  {
    var c := q.log[|p.log|..];
    assert forall i | 0 <= i < |c| :: c[i] == q.log[|p.log| + i];
  }

  /** One delivery keeps the log it was given and starts at most one source, under the next fresh id. */
  lemma DeliverStartsFresh(p: Playback, m: LiveMessage, hasContext: bool, now: real, decoded: Option<real>)
    ensures ExtendsFresh(p, Deliver(p, m, hasContext, now, decoded))
  {
    var q0 := if IsInterruption(m) then Interrupt(p) else p;
    BargeInStartsNothing(p, q0);
    if AudioPayload(m).Some? && hasContext && decoded.Some? {
      ScheduleAfterStopsIsFresh(p, q0, now, decoded.value);
    } else {
      StopsAreFresh(p, Deliver(p, m, hasContext, now, decoded));
    }
  }

  /**
   * A run of deliveries keeps the log it started from, and every source it starts gets a fresh id:
   * one not handed out before the run, below the final counter, and larger than every id started
   * earlier in the run. No source id is ever reused.
   */
  lemma {:induction false} RunStartsFreshSources(p: Playback, ds: seq<Delivery>)
    ensures ExtendsFresh(p, Run(p, ds))
    decreases |ds|
  {
    if ds == [] {
      StopsAreFresh(p, p);
    } else {
      var q := Deliver(p, ds[0].msg, true, ds[0].now, ds[0].decoded);
      DeliverStartsFresh(p, ds[0].msg, true, ds[0].now, ds[0].decoded);
      RunStartsFreshSources(q, ds[1..]);
      ExtendsFreshChains(p, q, Run(q, ds[1..]));
    }
  }

  /** Every `start` in `log` begins no earlier than `from` and than the end of the `start` before it. */
  predicate Gapless(log: seq<Effect>, from: real)
    decreases |log|
  {
    log == [] ||
    if log[0].Started? then log[0].at >= from && Gapless(log[1..], log[0].at + log[0].duration)
    else Gapless(log[1..], from)
  }

  /** A log gapless from some time is gapless from any earlier time. */
  lemma {:induction false} GaplessFromEarlier(log: seq<Effect>, from: real, earlier: real)
    requires Gapless(log, from) && earlier <= from
    ensures Gapless(log, earlier)
    decreases |log|
  {
    if log != [] && !log[0].Started? {
      GaplessFromEarlier(log[1..], from, earlier);
    }
  }

  /**
   * Between interruptions playback never overlaps: over any run without an interruption the
   * chunks scheduled are ordered, each starting no earlier than the previous one ends and the
   * first no earlier than the clock; the log only grows and the clock never decreases. Failed
   * decodes in the run only push the clock forward.
   */
  lemma {:induction false} RunWithoutInterruptionIsGapless(p: Playback, ds: seq<Delivery>)
    requires forall i | 0 <= i < |ds| :: !IsInterruption(ds[i].msg)
    requires forall i | 0 <= i < |ds| :: ds[i].decoded.Some? ==> ds[i].decoded.value >= 0.0
    ensures |p.log| <= |Run(p, ds).log| && Run(p, ds).log[..|p.log|] == p.log
    ensures Gapless(Run(p, ds).log[|p.log|..], p.clock)
    ensures Run(p, ds).clock >= p.clock
    decreases |ds|
  {
    if ds != [] {
      var p1 := Deliver(p, ds[0].msg, true, ds[0].now, ds[0].decoded);
      RunWithoutInterruptionIsGapless(p1, ds[1..]);
      var q := Run(p1, ds[1..]);
      assert q == Run(p, ds);
      if AudioPayload(ds[0].msg).Some? && ds[0].decoded.Some? {
        assert p1.log == p.log + [Started(p.nextId, Max(p.clock, ds[0].now), ds[0].decoded.value)];
        assert q.log[|p.log|..] == [p1.log[|p.log|]] + q.log[|p1.log|..];
        assert q.log[..|p.log|] == q.log[..|p1.log|][..|p.log|];
      } else {
        assert p1.log == p.log && p1.clock >= p.clock;
        GaplessFromEarlier(q.log[|p.log|..], p1.clock, p.clock);
      }
    } else {
      assert p.log[|p.log|..] == [];
    }
  }

  // ---------------------------------------------------------------------------------------------
  // The screen

  class LiveSession {
    var isActive: bool
    var status: string
    var frameInterval: Option<TimerId>
    var session: Option<nat>
    var audioContext: Option<nat>
    var videoStream: Option<nat>
    var nextStartTime: real
    var sources: seq<SourceId>
    var nextSourceId: SourceId
    var effects: seq<Effect>

    function HeldHandles(): Handles
      reads this
    {
      Handles(frameInterval, session, audioContext, videoStream)
    }

    function PlaybackState(): Playback
      reads this
    {
      Playback(nextStartTime, sources, nextSourceId, effects)
    }

    predicate Valid()
      reads this`sources, this`nextSourceId
    {
      SourcesWellFormed(sources, nextSourceId)
    }

    /** The screen as mounted: idle, nothing held, clock at 0, no source scheduled. */
    constructor ()
      ensures Valid() && !isActive && status == IdleStatus
      ensures HeldHandles() == NoHandles && PlaybackState() == Playback(0.0, [], 0, [])
    {
      isActive := false;
      status := IdleStatus;
      frameInterval, session, audioContext, videoStream := None, None, None, None;
      nextStartTime := 0.0;
      sources := [];
      nextSourceId := 0;
      effects := [];
    }

    /** Clears the frame timer, if one is held, and forgets it. */
    method ReleaseFrameTimer()
      modifies this`frameInterval, this`effects
      ensures frameInterval.None?
      ensures effects == old(effects) + (if old(frameInterval).Some? then [Released(FrameTimer(old(frameInterval).value))] else [])
    {
      if frameInterval.Some? {
        effects := effects + [Released(FrameTimer(frameInterval.value))];
        frameInterval := None;
      }
    }

    /** Closes the remote session, if one is held, and forgets it. */
    method ReleaseSession()
      modifies this`session, this`effects
      ensures session.None?
      ensures effects == old(effects) + (if old(session).Some? then [Released(Session(old(session).value))] else [])
    {
      if session.Some? {
        effects := effects + [Released(Session(session.value))];
        session := None;
      }
    }

    /** Closes the playback context, if one is held, and forgets it. */
    method ReleaseContext()
      modifies this`audioContext, this`effects
      ensures audioContext.None?
      ensures effects == old(effects) + (if old(audioContext).Some? then [Released(Context(old(audioContext).value))] else [])
    {
      if audioContext.Some? {
        effects := effects + [Released(Context(audioContext.value))];
        audioContext := None;
      }
    }

    /** Stops the tracks of the stream shown in the video element, if any, and detaches it. */
    method ReleaseStream()
      modifies this`videoStream, this`effects
      ensures videoStream.None?
      ensures effects == old(effects) + (if old(videoStream).Some? then [Released(Stream(old(videoStream).value))] else [])
    {
      if videoStream.Some? {
        effects := effects + [Released(Stream(videoStream.value))];
        videoStream := None;
      }
    }

    /**
     * `stopSession`: every held handle is released once and nulled, the screen goes idle. The
     * playback clock and the source set are not touched. Called when nothing is held, it
     * releases nothing.
     */
    method StopSession()
      requires Valid()
      modifies this
      ensures Valid()
      ensures !isActive && status == IdleStatus && HeldHandles() == NoHandles
      ensures effects == old(effects) + Releases(old(HeldHandles()))
      ensures old(HeldHandles()) == NoHandles ==> effects == old(effects)
      ensures nextStartTime == old(nextStartTime) && sources == old(sources) && nextSourceId == old(nextSourceId)
    {
      isActive := false;
      status := IdleStatus;
      ghost var e0 := effects;
      ReleaseFrameTimer();
      ghost var e1 := effects;
      ReleaseSession();
      ghost var e2 := effects;
      ReleaseContext();
      ghost var e3 := effects;
      ReleaseStream();
      ReleasesInOrder(old(HeldHandles()), e0, e1, e2, e3, effects);
    }

    /**
     * `startSession`: the playback context `context` is opened first. When media access is
     * refused (`media` is None) the catch block tears everything down, the new context
     * included. Otherwise the granted stream is kept in the video element only when the camera
     * is on, and the session handle is kept.
     */
    method StartSession(cameraOn: bool, context: nat, media: Option<nat>, sessionId: nat)
      requires Valid()
      modifies this
      ensures Valid()
      ensures nextStartTime == old(nextStartTime) && sources == old(sources) && nextSourceId == old(nextSourceId)
      ensures media.None? ==> !isActive && status == IdleStatus && HeldHandles() == NoHandles
      ensures media.None? ==> effects == old(effects) + Releases(old(HeldHandles()).(context := Some(context)))
      ensures media.Some? ==> isActive && status == ConnectingStatus && effects == old(effects)
      ensures media.Some? ==> HeldHandles() == old(HeldHandles()).(context := Some(context), session := Some(sessionId),
                                                                   stream := if cameraOn then media else old(videoStream))
    {
      isActive := true;
      status := ConnectingStatus;
      audioContext := Some(context);
      if media.None? {
        StopSession();
        return;
      }
      if cameraOn {
        videoStream := media;
      }
      session := Some(sessionId);
    }

    /** `onopen`: the status greets, and with the camera on the one-second frame timer is started. */
    method OnOpen(cameraOn: bool, timer: TimerId)
      requires Valid()
      modifies this
      ensures Valid()
      ensures status == ListeningStatus && isActive == old(isActive)
      ensures HeldHandles() == old(HeldHandles()).(timer := if cameraOn then Some(timer) else old(frameInterval))
      ensures PlaybackState() == old(PlaybackState())
    {
      status := ListeningStatus;
      if cameraOn {
        frameInterval := Some(timer);
      }
    }

    /** Barge-in: every scheduled source is stopped in order, the set is emptied, the clock reset to 0. */
    method StopAllSources()
      modifies this`effects, this`sources, this`nextStartTime
      ensures PlaybackState() == Interrupt(old(PlaybackState()))
    {
      for i := 0 to |sources|
        modifies this`effects
        invariant effects == old(effects) + StopAll(sources[..i])
      {
        assert sources[..i + 1][..i] == sources[..i];
        effects := effects + [Stopped(sources[i])];
      }
      assert sources[..|sources|] == sources;
      sources := [];
      nextStartTime := 0.0;
    }

    /**
     * One audio chunk: the clock is raised to `max(clock, now)` before decoding is awaited; a
     * decoded buffer is then started at the clock with a fresh source, which joins the set.
     */
    method PlayChunk(now: real, decoded: Option<real>)
      modifies this`effects, this`sources, this`nextStartTime, this`nextSourceId
      ensures decoded.Some? ==> PlaybackState() == Schedule(old(PlaybackState()), now, decoded.value)
      ensures decoded.None? ==> PlaybackState() == DecodeFailed(old(PlaybackState()), now)
    {
      nextStartTime := Max(nextStartTime, now);
      if decoded.Some? {
        var source := nextSourceId;
        nextSourceId := nextSourceId + 1;
        effects := effects + [Started(source, nextStartTime, decoded.value)];
        nextStartTime := nextStartTime + decoded.value;
        sources := sources + [source];
      }
    }

    /**
     * `onmessage`, as one atomic step: the state moves exactly as `Deliver` says. `decoded` is
     * the decoded buffer's duration, or None when decoding rejected.
     */
    method OnMessage(m: LiveMessage, now: real, decoded: Option<real>)
      requires Valid()
      requires decoded.Some? ==> decoded.value >= 0.0
      modifies this
      ensures Valid()
      ensures PlaybackState() == Deliver(old(PlaybackState()), m, old(audioContext).Some?, now, decoded)
      ensures HeldHandles() == old(HeldHandles()) && isActive == old(isActive) && status == old(status)
    {
      StepsKeepWellFormed(PlaybackState(), m, audioContext.Some?, now, decoded, 0);
      if IsInterruption(m) {
        StopAllSources();
      }
      var audioStr := AudioPayload(m);
      if audioStr.Some? && audioContext.Some? {
        PlayChunk(now, decoded);
      }
    }

    /** A source's `onended`: it leaves the set. */
    method OnSourceEnded(id: SourceId)
      requires Valid()
      modifies this
      ensures Valid()
      ensures PlaybackState() == Ended(old(PlaybackState()), id)
      ensures HeldHandles() == old(HeldHandles()) && isActive == old(isActive) && status == old(status)
    {
      StepsKeepWellFormed(PlaybackState(), LiveMessage(None), false, 0.0, None, id);
      sources := Without(sources, id);
    }

    /** `onclose`: the same teardown as the stop button. */
    method OnClose()
      requires Valid()
      modifies this
      ensures Valid()
      ensures !isActive && status == IdleStatus && HeldHandles() == NoHandles
      ensures effects == old(effects) + Releases(old(HeldHandles()))
      ensures nextStartTime == old(nextStartTime) && sources == old(sources) && nextSourceId == old(nextSourceId)
    {
      StopSession();
    }

    /** `onerror`: logged, then the same teardown. */
    method OnError()
      requires Valid()
      modifies this
      ensures Valid()
      ensures !isActive && status == IdleStatus && HeldHandles() == NoHandles
      ensures effects == old(effects) + Releases(old(HeldHandles()))
      ensures nextStartTime == old(nextStartTime) && sources == old(sources) && nextSourceId == old(nextSourceId)
    {
      StopSession();
    }

    /**
     * The unmount cleanup of the mount effect. By the time it runs, React has already detached the
     * video element's ref, so `videoRef.current?.srcObject` is undefined: the stream is dropped
     * without its tracks being stopped, and only the other handles are released.
     */
    method Unmount()
      requires Valid()
      modifies this
      ensures Valid()
      ensures !isActive && status == IdleStatus && HeldHandles() == NoHandles
      ensures effects == old(effects) + Releases(old(HeldHandles()).(stream := None))
      ensures nextStartTime == old(nextStartTime) && sources == old(sources) && nextSourceId == old(nextSourceId)
    {
      videoStream := None;
      StopSession();
    }
  }

  /**
   * A camera session that opened and is then stopped twice: the first stop releases the timer,
   * the session, the context and the stream, in that order; the second releases nothing.
   */
  method StopTwiceScenario(context: nat, stream: nat, sessionId: nat, timer: TimerId)
    returns (afterFirst: seq<Effect>, afterSecond: seq<Effect>)
    ensures afterFirst == [Released(FrameTimer(timer)), Released(Session(sessionId)),
                           Released(Context(context)), Released(Stream(stream))]
    ensures afterSecond == afterFirst
  {
    var live := new LiveSession();
    live.StartSession(true, context, Some(stream), sessionId);
    live.OnOpen(true, timer);
    live.StopSession();
    afterFirst := live.effects;
    live.StopSession();
    afterSecond := live.effects;
  }

  /**
   * A camera session left by switching to another section: the unmount releases the frame timer,
   * the session and the context, but never stops the camera and microphone tracks.
   */
  method UnmountCameraSessionScenario(context: nat, stream: nat, sessionId: nat, timer: TimerId)
    returns (log: seq<Effect>)
    ensures log == [Released(FrameTimer(timer)), Released(Session(sessionId)), Released(Context(context))]
    ensures Released(Stream(stream)) !in log
  {
    var live := new LiveSession();
    live.StartSession(true, context, Some(stream), sessionId);
    live.OnOpen(true, timer);
    live.Unmount();
    log := live.effects;
  }

  /**
   * With the camera off, the granted microphone stream is never stored in a handle, so the
   * teardown that follows does not stop its tracks; only the context and the session are released.
   */
  method AudioOnlySessionScenario(context: nat, stream: nat, sessionId: nat) returns (log: seq<Effect>)
    ensures log == [Released(Session(sessionId)), Released(Context(context))]
    ensures Released(Stream(stream)) !in log
  {
    var live := new LiveSession();
    live.StartSession(false, context, Some(stream), sessionId);
    live.StopSession();
    log := live.effects;
  }

  /**
   * Teardown does not reset the playback clock: after one chunk of `d` seconds, a stop and a
   * new session, the first chunk on the new context (whose time restarts at 0) is scheduled at
   * `d`, not at 0.
   */
  method RestartKeepsClockScenario(m: LiveMessage, d: real) returns (firstAt: real, secondAt: real)
    requires AudioPayload(m).Some? && !IsInterruption(m) && d > 0.0
    ensures firstAt == 0.0 && secondAt == d
  {
    var live := new LiveSession();
    live.StartSession(false, 1, Some(1), 1);
    live.OnMessage(m, 0.0, Some(d));
    firstAt := live.effects[|live.effects| - 1].at;
    live.StopSession();
    live.StartSession(false, 2, Some(2), 2);
    live.OnMessage(m, 0.0, Some(d));
    secondAt := live.effects[|live.effects| - 1].at;
  }
}

=== FILE: maps_studio.dfy ===
/**
 * The place-search screen: one maps-grounded query at a time, rendered as the map places the
 * answer cites. `handleSearch` awaits the service, so it is modelled as `BeginSearch` (before the
 * `await`) and `FinishSearch` (after it).
 */
module MapsStudio {
  import opened Wrappers
  import opened SdkResponse
  import JsText

  const SearchLead := "Encuentra este lugar en Tintay o Apurímac: "
  const SearchStyle := ". Dame detalles turísticos y culturales."

  /** The prompt sent for a place query: the query verbatim between the fixed lead and style. */
  function SearchPrompt(query: string): string {
    SearchLead + query + SearchStyle
  }

  /**
   * The query can be read back from the prompt: it sits verbatim after the fixed lead and before
   * the fixed style.
   */
  lemma SearchPromptQuotesQuery(query: string)
    ensures |SearchPrompt(query)| == |SearchLead| + |query| + |SearchStyle|
    ensures var p := SearchPrompt(query);
      p[..|SearchLead|] == SearchLead
      && p[|SearchLead|..|p| - |SearchStyle|] == query
      && p[|p| - |SearchStyle|..] == SearchStyle
  {
  }

  /** The grounding chunks that cite a map place, in order. */
  function MapsChunks(chunks: seq<GroundingChunk>): (r: seq<GroundingChunk>)
    ensures forall i | 0 <= i < |r| :: r[i].maps.Some?
  {
    Filter(chunks, HasMaps)
  }

  /** Places of concatenated chunk lists are the concatenated places; a chunk without a map place adds none. */
  lemma MapsChunksAppend(a: seq<GroundingChunk>, b: seq<GroundingChunk>)
    ensures MapsChunks(a + b) == MapsChunks(a) + MapsChunks(b)
    ensures forall c | c in a + b && c.maps.Some? :: c in MapsChunks(a + b)
  {
    FilterAppend(a, b, HasMaps);
    FilterMembers(a + b, HasMaps);
  }

  class PlacesScreen {
    var query: string
    var places: seq<GroundingChunk>
    var loading: bool

    constructor ()
      ensures query == "" && places == [] && !loading
    {
      query := "";
      places := [];
      loading := false;
    }

    /** The input's `onChange`. */
    method SetQuery(q: string)
      modifies this
      ensures query == q && places == old(places) && loading == old(loading)
    {
      query := q;
    }

    /**
     * `handleSearch` up to its `await`: a blank query changes nothing; otherwise loading is
     * raised, the previous places are cleared, and the prompt to send is returned.
     */
    method BeginSearch() returns (request: Option<string>)
      modifies this`loading, this`places
      ensures request.None? <==> JsText.IsBlank(old(query))
      ensures request.None? ==> places == old(places) && loading == old(loading)
      ensures request.Some? ==> request.value == SearchPrompt(old(query)) && loading && places == []
      ensures query == old(query)
    {
      if JsText.TrimsToEmpty(query) {
        return None;
      }
      StartLoading();
      request := Some(SearchPrompt(query));
    }

    /** The state updates `handleSearch` makes before its `await`. */
    method StartLoading()
      modifies this`loading, this`places
      ensures loading && places == []
    {
      loading := true;
      places := [];
    }

    /**
     * `handleSearch` after its `await`: on success the places are exactly the map chunks of the
     * answer; a failure is only logged, so the places stay as they were; loading drops.
     */
    method FinishSearch(outcome: Result<Response, RemoteError>)
      modifies this
      ensures outcome.Ok? ==> places == MapsChunks(GroundingChunks(outcome.value))
      ensures outcome.Err? ==> places == old(places)
      ensures !loading && query == old(query)
    {
      if outcome.Ok? {
        places := Filter(GroundingChunks(outcome.value), HasMaps);
      }
      loading := false;
    }

    /** `handleSearch` as a whole; a failed search shows no places. */
    method HandleSearch(remote: Remote) returns (accepted: bool)
      modifies this
      ensures accepted <==> !JsText.IsBlank(old(query))
      ensures !accepted ==> places == old(places) && loading == old(loading)
      ensures accepted && remote(SearchPrompt(old(query))).Ok? ==>
                places == MapsChunks(GroundingChunks(remote(SearchPrompt(old(query))).value))
      ensures accepted && remote(SearchPrompt(old(query))).Err? ==> places == []
      ensures accepted ==> !loading
      ensures query == old(query)
    {
      var request := BeginSearch();
      accepted := request.Some?;
      if accepted {
        FinishSearch(remote(request.value));
      }
    }
  }
}

=== FILE: museum_studio.dfy ===
/**
 * The historical-research screen: one grounded query at a time, rendered as a text and the web
 * pages it cites. `handleInvestigate` awaits the service, so it is modelled as `BeginInvestigate`
 * (before the `await`) and `FinishInvestigate` (after it).
 */
module MuseumStudio {
  import opened Wrappers
  import opened SdkResponse
  import JsText
  import GeminiService

  const NotFoundText := "No encontré lo que buscabas, corazoncito."
  const ApologyText := "¡Ay, papachay! Hubo un error buscando en la memoria de los abuelos. ¿Me lo repites, tesoro?"

  const InvestigationLead := "Investigación histórica profunda para Tintay: "
  const InvestigationStyle := ". Responde con tono académico pero muy cariñoso, como una mamachay que cuenta historias del pasado."

  /** The prompt sent for a research query: the query verbatim between the fixed lead and style. */
  function InvestigationPrompt(query: string): string {
    InvestigationLead + query + InvestigationStyle
  }

  /**
   * The query can be read back from the prompt: it sits verbatim after the fixed lead and before
   * the fixed style.
   */
  lemma InvestigationPromptQuotesQuery(query: string)
    ensures |InvestigationPrompt(query)| == |InvestigationLead| + |query| + |InvestigationStyle|
    ensures var p := InvestigationPrompt(query);
      p[..|InvestigationLead|] == InvestigationLead
      && p[|InvestigationLead|..|p| - |InvestigationStyle|] == query
      && p[|p| - |InvestigationStyle|..] == InvestigationStyle
  {
  }

  /** The text shown once the service has answered or failed; never empty. */
  function ResultText(outcome: Result<Response, RemoteError>): (t: string)
    ensures t != ""
    ensures outcome.Err? ==> t == ApologyText
    ensures outcome.Ok? && JsText.Truthy(outcome.value.text) ==> t == outcome.value.text.value
    ensures outcome.Ok? && !JsText.Truthy(outcome.value.text) ==> t == NotFoundText
  {
    match outcome
    case Ok(r) => JsText.OrElse(r.text, NotFoundText)
    case Err(_) => ApologyText
  }

  class ResearchScreen {
    var query: string
    var result: Option<string>
    var sources: seq<GroundingChunk>
    var loading: bool

    constructor ()
      ensures query == "" && result.None? && sources == [] && !loading
    {
      query := "";
      result := None;
      sources := [];
      loading := false;
    }

    /** The input's `onChange`. */
    method SetQuery(q: string)
      modifies this
      ensures query == q && result == old(result) && sources == old(sources) && loading == old(loading)
    {
      query := q;
    }

    /**
     * `handleInvestigate` up to its `await`: a blank query changes nothing; otherwise loading is
     * raised, the previous result and sources are cleared, and the prompt to send is returned.
     */
    method BeginInvestigate() returns (request: Option<string>)
      modifies this`loading, this`result, this`sources
      ensures request.None? <==> JsText.IsBlank(old(query))
      ensures request.None? ==> result == old(result) && sources == old(sources) && loading == old(loading)
      ensures request.Some? ==> request.value == InvestigationPrompt(old(query))
      ensures request.Some? ==> loading && result.None? && sources == []
      ensures query == old(query)
    {
      if JsText.TrimsToEmpty(query) {
        return None;
      }
      StartLoading();
      request := Some(InvestigationPrompt(query));
    }

    /** The state updates `handleInvestigate` makes before its `await`. */
    method StartLoading()
      modifies this`loading, this`result, this`sources
      ensures loading && result.None? && sources == []
    {
      loading := true;
      result := None;
      sources := [];
    }

    /**
     * `handleInvestigate` after its `await`: the result text is set; on success the sources are
     * exactly the web chunks of the answer, on failure they are left as they were; loading drops.
     */
    method FinishInvestigate(outcome: Result<Response, RemoteError>)
      modifies this
      ensures result == Some(ResultText(outcome))
      ensures outcome.Ok? ==> sources == GeminiService.WebChunks(GroundingChunks(outcome.value))
      ensures outcome.Err? ==> sources == old(sources)
      ensures !loading && query == old(query)
    {
      match outcome {
        case Ok(response) =>
          result := Some(JsText.OrElse(response.text, NotFoundText));
          sources := Filter(GroundingChunks(response), HasWeb);
        case Err(_) =>
          result := Some(ApologyText);
      }
      loading := false;
    }

    /** `handleInvestigate` as a whole; a failed investigation shows the apology and no sources. */
    method HandleInvestigate(remote: Remote) returns (accepted: bool)
      modifies this
      ensures accepted <==> !JsText.IsBlank(old(query))
      ensures !accepted ==> result == old(result) && sources == old(sources) && loading == old(loading)
      ensures accepted ==> result == Some(ResultText(remote(InvestigationPrompt(old(query)))))
      ensures accepted && remote(InvestigationPrompt(old(query))).Ok? ==>
                sources == GeminiService.WebChunks(GroundingChunks(remote(InvestigationPrompt(old(query))).value))
      ensures accepted && remote(InvestigationPrompt(old(query))).Err? ==> sources == []
      ensures accepted ==> !loading
      ensures query == old(query)
    {
      var request := BeginInvestigate();
      accepted := request.Some?;
      if accepted {
        FinishInvestigate(remote(request.value));
      }
    }
  }
}

=== FILE: sdk_response.dfy ===
/**
 * The abstract shape of a `generateContent` response of the generative-AI SDK, as far as the
 * client reads it, and the optional-chaining paths the client takes through it. Every field the
 * client reaches with `?.` is an Option; the SDK call itself is an opaque `Remote`.
 */
module SdkResponse {
  import opened Wrappers

  datatype WebRef = WebRef(title: Option<string>, uri: Option<string>)
  datatype MapsRef = MapsRef(title: Option<string>, uri: Option<string>)

  /** A citation returned beside a grounded answer: a web page, a map place, or neither. */
  datatype GroundingChunk = GroundingChunk(web: Option<WebRef>, maps: Option<MapsRef>)

  datatype GroundingMetadata = GroundingMetadata(groundingChunks: Option<seq<GroundingChunk>>)
  datatype InlineData = InlineData(data: Option<string>)
  datatype Part = Part(inlineData: Option<InlineData>)
  datatype Content = Content(parts: Option<seq<Part>>)
  datatype Candidate = Candidate(content: Option<Content>, groundingMetadata: Option<GroundingMetadata>)

  /** `text` is the SDK's convenience accessor over the first candidate's text parts. */
  datatype Response = Response(text: Option<string>, candidates: Option<seq<Candidate>>)

  datatype RemoteError = RemoteError(detail: string)

  /** One remote call: the prompt sent, and what the service answers or the error it throws. */
  type Remote = string -> Result<Response, RemoteError>

  /** `response.candidates?.[0]`: present exactly when there is at least one candidate. */
  function FirstCandidate(r: Response): (c: Option<Candidate>)
    ensures c.Some? <==> r.candidates.Some? && |r.candidates.value| > 0
    ensures c.Some? ==> c.value == r.candidates.value[0]
  {
    if r.candidates.Some? && |r.candidates.value| > 0 then Some(r.candidates.value[0]) else None
  }

  /**
   * `response.candidates?.[0]?.groundingMetadata?.groundingChunks || []`: a present chunk list of
   * the first candidate is returned as it is, and a non-empty result is always that list.
   */
  function GroundingChunks(r: Response): (cs: seq<GroundingChunk>)
    ensures cs != [] ==> FirstCandidate(r).Some? && FirstCandidate(r).value.groundingMetadata.Some?
                         && FirstCandidate(r).value.groundingMetadata.value.groundingChunks == Some(cs)
    ensures FirstCandidate(r).Some? && FirstCandidate(r).value.groundingMetadata.Some?
            && FirstCandidate(r).value.groundingMetadata.value.groundingChunks.Some?
            ==> cs == FirstCandidate(r).value.groundingMetadata.value.groundingChunks.value
  {
    match FirstCandidate(r)
    case None => []
    case Some(c) =>
      if c.groundingMetadata.Some? && c.groundingMetadata.value.groundingChunks.Some?
      then c.groundingMetadata.value.groundingChunks.value
      else []
  }

  /** A response without candidates or without grounding metadata has no grounding chunks. */
  lemma MissingMetadataMeansNoChunks(r: Response)
    requires FirstCandidate(r).None? || FirstCandidate(r).value.groundingMetadata.None?
             || FirstCandidate(r).value.groundingMetadata.value.groundingChunks.None?
    ensures GroundingChunks(r) == []
  {
  }

  /** `s.filter(keep)`: the elements that pass, in their original order. */
  function Filter<T>(s: seq<T>, keep: T -> bool): (r: seq<T>)
    ensures |r| <= |s|
    ensures forall i | 0 <= i < |r| :: keep(r[i])
  {
    if s == [] then []
    else (if keep(s[0]) then [s[0]] else []) + Filter(s[1..], keep)
  }

  /** An element is kept exactly when it occurs in the input and passes. */
  lemma {:induction false} FilterMembers<T>(s: seq<T>, keep: T -> bool)
    ensures forall x :: x in Filter(s, keep) <==> x in s && keep(x)
  {
    if s != [] {
      FilterMembers(s[1..], keep);
      assert s == [s[0]] + s[1..];
    }
  }

  /** Filtering distributes over concatenation, so the kept elements stay in their order. */
  lemma {:induction false} FilterAppend<T>(a: seq<T>, b: seq<T>, keep: T -> bool)
    ensures Filter(a + b, keep) == Filter(a, keep) + Filter(b, keep)
  {
    if a == [] {
      assert a + b == b;
    } else {
      assert (a + b)[1..] == a[1..] + b;
      FilterAppend(a[1..], b, keep);
    }
  }

  /** A filter that keeps every element is the identity; one that keeps none yields []. */
  lemma {:induction false} FilterExtremes<T>(s: seq<T>, keep: T -> bool)
    ensures (forall i | 0 <= i < |s| :: keep(s[i])) ==> Filter(s, keep) == s
    ensures (forall i | 0 <= i < |s| :: !keep(s[i])) ==> Filter(s, keep) == []
  {
    if s != [] {
      FilterExtremes(s[1..], keep);
      assert forall i | 0 <= i < |s[1..]| :: s[1..][i] == s[i + 1];
    }
  }

  predicate HasWeb(c: GroundingChunk) { c.web.Some? }
  predicate HasMaps(c: GroundingChunk) { c.maps.Some? }

  /** `parts.findIndex(p => p.inlineData)`, None for -1. */
  function FirstInlineIndex(parts: seq<Part>): (k: Option<nat>)
    ensures k.Some? ==> k.value < |parts| && parts[k.value].inlineData.Some?
    ensures k.Some? ==> forall j | 0 <= j < k.value :: parts[j].inlineData.None?
    ensures k.None? <==> forall j | 0 <= j < |parts| :: parts[j].inlineData.None?
  {
    if parts == [] then None
    else if parts[0].inlineData.Some? then Some(0)
    else match FirstInlineIndex(parts[1..])
      case None => None
      case Some(k) => Some(k + 1)
  }
}

=== FILE: types.dfy ===
/** The records of the chat screen and of the assistant client. */
module Types {
  import opened Wrappers

  datatype Role = User | Assistant

  /** A citation shown under an assistant message: a link title and its target. */
  datatype Source = Source(title: string, uri: string)

  /** One turn of the conversation log. */
  datatype Message = Message(role: Role, text: string, audioData: Option<string>, sources: Option<seq<Source>>)

  /** The three UI flags of the chat screen. */
  datatype AudioProcessingState = AudioProcessingState(isRecording: bool, isProcessing: bool, isPlaying: bool)
}

=== FILE: wrappers.dfy ===
/** Option and Result, the shapes used for JavaScript's `undefined`/`null` and for calls that throw. */
module Wrappers {

  /** A value that may be absent (`undefined` or `null` on the JavaScript side). */
  datatype Option<+T> = None | Some(value: T)

  /** The outcome of a call that either returns a value or throws an error. */
  datatype Result<+R, +E> = Ok(value: R) | Err(error: E)
}
